=== FILE: README.md ===
# smwmerge in Dafny

A model of the core of `smwmerge.py`. It is a three-way merge tool for Crestron SIMPL Windows
(`.smw`) programs. An SMW file is a list of records separated by a line holding only `]`. A record is
a `[` line, `key=value` lines and the closing `]`. Lines end in CRLF.

The tool reads three files: yours (`A`), theirs (`B`) and the common ancestor (`x`). Each file is read
as records (`inFile`). For every record type it does the following:

- It renders that type's records (`diffOut`).
- It merges the three lists line by line with the strategy the type table names (`Merge.threeWay`).
  Each "line" here is one rendered record.
- It concatenates the results.

The merged records are then read back by `outFile`. There, every record gets an id (`H`) that is
unique within its type. The cross references (`SmH`, `CmH`, `DbH`, the parent `PrH`, the children
`C1`, `C2`, …) and the symbols' signal ports are rewritten to the new ids. Signals no symbol uses are
hidden. The remaining records are written out.

The modules follow the program's structure:

- `Text` (text.dfy): `str.split` / `str.join` and Python's `int()` on strings.
- `Alignment` (alignment.dfy): `difflib.Differ` output as a sequence of tagged entries, and
  `eliminateInlineMarkers`.
- `Outcomes` (outcomes.dfy): the exceptions the core raises, as an error datatype, plus `Result`.
- `Records` (record.dfy): `smwObject`, `_key` and `diffObject`.
- `Strategies` (strategy.dfy): the strategy classes, the type table, `_preprocessAdd`, `twoWay`,
  `_lastDitchMerge` and the conflict managers.
- `ThreeWayMerge` (merge.dfy): `threeWay`.
- `Snapshots` (snapshot.dfy): `inFile`.
- `RefTables` (refs.dfy): `outFile`'s reference tables, `getUniqueRef` and `buildForwardReference`.
- `OutFiles` (outfile.dfy): the rest of `outFile`.
- `Driver` (driver.dfy): the dispatch loop of `merge()`.

Some behaviour of the code as written, stated by the model:

- `threeWay` can loop forever. Suppose both cursors sit on unchanged lines with different text and
  the last-ditch merge declines. Then the two conflict spans are empty and neither cursor moves.
  `Walk` returns `Diverges` in exactly that state. `ThreeWayMerge.PlainMergeCanHang` gives a pair
  of well-formed alignments that reach it.
- No entry of the type table uses the diff3 conflict manager. Every other manager reports its
  conflict as resolved, so the conflict flag `merge()` computes is always false
  (`Driver.MergeKinds`).
- `MergeSymbols` shows an "unhandled merge conflict" error dialog (`tkMessageBox.showerror`) when
  both sides removed lines just before.
  Even then its manager returns `True` with no lines. The model follows the code: the conflict
  counts as resolved.
- The type table maps `Bw` to `False`, and `merge()` skips that type. Its records vanish from
  the output.
- `buildRefTables` has a mutable default argument, `base={}`. So every non-signal type shares one
  base-side id table, and an `A` or `B` lookup that misses in its own table can find a record of
  another type. The model keeps this: `State.shared` is that one table.
- `getUniqueRef` raises for a record whose `H`, `H-B` and `H-A` are all empty: `float('')` fails.
  The model returns `EmptyId` there.
- A cross reference into the final table reaching the pre-claimed `''` entry reads `.H` of
  `False` and raises. The model returns `ReservedOwner`.

## Model

| member | source | states |
|---|---|---|
| Text.PyInt | smwmerge.py:464-467 | `int()` on a string: accepts optionally signed decimal strings, with their value |
| Text.JoinSplit | smwmerge.py:671 | joining the pieces of a split with the separator gives back the string |
| Alignment.EliminateInlineMarkers | smwmerge.py:88-94 | the first entry is kept even when it is a `'? '` hint; every later hint is removed and the rest keep their order |
| Alignment.EliminateInlineMarkersIdempotent | smwmerge.py:88-94 | removing the markers twice is removing them once |
| Alignment.EliminateInlineMarkersNoHints | smwmerge.py:88-94 | an alignment without hints is left unchanged |
| Strategies.StrategyFor | smwmerge.py:410-423 | `''` is conservative, `Sm` symbols, `Sg` SMW greedy, `FSgntr` max-keys; `Bw` (and only `Bw`) has no strategy; any other type is SMW conservative |
| Strategies.PreprocessLine | smwmerge.py:256-263 | a line without `=`, or whose key is neither an `…H` reference nor a `C<digits>` child key, is left unchanged |
| Strategies.PreprocessTagsSide | smwmerge.py:256-263 | a reference or child key line is rewritten so that the record parser reads the same key and value with the side as its source |
| Strategies.PreprocessLineIdempotent | smwmerge.py:256-263 | a tagged line is never tagged again, whichever side tags it the second time |
| Strategies.PreprocessAdd | smwmerge.py:258-263 | the plain strategies add lines unchanged (the base stub, smwmerge.py:225-226); the SMW ones preprocess each CRLF-separated line of the element for its side, so lines without `=` stay unchanged |
| Strategies.PreprocessAddIdempotent | smwmerge.py:258-263 | preprocessing a whole record twice is preprocessing it once |
| Strategies.TwoWay | smwmerge.py:97-121 | one output line per entry that is not a hint, in order: an unchanged line as it is, a line only in the left list preprocessed for side A, a line only in the right list preprocessed for side B |
| Strategies.TwoWayAllSame | smwmerge.py:97-121 | when nothing changed, the two-way merge is the common text |
| Strategies.TwoWayKeepsBothSides | smwmerge.py:97-121 | for plain strategies both inputs appear in order within the result |
| Strategies.LastDitchMerge | smwmerge.py:265-272 | only the max-keys strategy raises; plain strategies decline; an SMW strategy offers the CRLF-joined two-way merge of the two records exactly when that text parses as a record |
| Strategies.LastDitchMergeOfEqualElements | smwmerge.py:265-272 | when the differ reports an element against itself as all unchanged, an SMW strategy offers the element itself exactly when it parses |
| Strategies.Resolve | smwmerge.py:231-251 | each conflict manager's verdict and lines: diff3 unresolved with exactly `<<<<<<< A`, A's span, `=======`, B's span, `>>>>>>> B`, conservative B's span, greedy both spans, symbols both spans or nothing after two removals, max-keys raises |
| ThreeWayMerge.Walk | smwmerge.py:147-210 | the conflict flag is true iff some manager call left its conflict unresolved; only diff3 can set it; only max-keys raises |
| ThreeWayMerge.ThreeWay | smwmerge.py:124-218 | the flag is true iff some manager verdict is false, and never for a strategy other than diff3 |
| ThreeWayMerge.WalkConflictingAdditions | smwmerge.py:186-210 | two runs of additions with different first lines, under a plain strategy: the last-ditch merge declines and the conflict manager's lines and verdict for both whole runs are the result; max-keys raises |
| ThreeWayMerge.WalkLastDitchAdditions | smwmerge.py:180-185 | one added line on each side under an SMW strategy: when their two-way merge is a non-empty record, that merged element is the whole output, with no conflict |
| ThreeWayMerge.WalkTail | smwmerge.py:212-216 | once a cursor is at its end, every remaining entry of the other alignment is appended, preprocessed, whatever its tag |
| ThreeWayMerge.WalkIdentical | smwmerge.py:147-170 | identical hint-free alignments merge without conflict into the unchanged and added texts, only the adds preprocessed |
| ThreeWayMerge.ThreeWayUnchangedA | smwmerge.py:124-218 | if A equals the ancestor the result is B's edits applied; for plain strategies exactly B |
| ThreeWayMerge.ThreeWayUnchangedB | smwmerge.py:124-218 | if B equals the ancestor the result is A's edits applied; for plain strategies exactly A |
| ThreeWayMerge.ThreeWayBothSame | smwmerge.py:124-218 | if both sides made the same edit the result is that edit; for plain strategies exactly A |
| ThreeWayMerge.MarkersEliminated | smwmerge.py:138-139 | when the first entry is not a hint, marker elimination drops every hint |
| ThreeWayMerge.PlainMergeCanHang | smwmerge.py:186-210 | two valid alignments on which the plain merge makes no progress and never ends |
| Records.MakeEntry | smwmerge.py:499-506 | a raw key with exactly one `-` splits into key and source around it; any other key is kept whole with source `''` |
| Records.SplitLine | smwmerge.py:441-447 | a line splits at its first `=`, and only a line containing `=` splits |
| Records.ParseSkipsLinesWithoutEquals | smwmerge.py:441-447 | lines without `=` do not affect the parse |
| Records.NewKey | smwmerge.py:520-543 | a repeated slot with a different value raises; otherwise the entry is stored in its slot (`H`, `H-A`, `H-B` separately, other `K-S` under `K`) and the stripped key is appended to the order once |
| Records.SelfIdSlotsAreDistinct | smwmerge.py:532-535 | `H`, `H-A` and `H-B` occupy three different slots |
| Records.NewChildKey | smwmerge.py:523-526 | each further `C0H` line is stored as the next child number |
| Records.ChildLinesRenumbered | smwmerge.py:523-526 | successive `C0H` lines parse into `C1`, `C2`, … in order |
| Records.GetKey | smwmerge.py:552-556 | a key's value, or `''` when the key is absent |
| Records.GetKeySource | smwmerge.py:558-559 | the key's side tag, failing exactly when the key is absent |
| Records.SetKey | smwmerge.py:545-550 | fails exactly for an absent key; otherwise that key reads the new value and every other key is unchanged |
| Records.DelKey | smwmerge.py:564-568 | the key is gone, every other key unchanged |
| Records.Render | smwmerge.py:603-619 | the text is empty exactly when no key of the order renders |
| Records.RenderSplits | smwmerge.py:603-619 | the rendered text is the `[` line, the `key=value` lines, and the `]` line, CRLF-joined |
| Records.ParseRenderRoundTrip | smwmerge.py:603-619 | parsing a rendered canonical body gives the body back |
| Records.ChildRunEnd | smwmerge.py:481-495 | the child walk stops at the first absent `C<n>`, all before it present |
| Records.MarkChildren | smwmerge.py:481-495 | exactly the run `C1` … up to the first gap is marked to render as `C0H`; every other entry is unchanged |
| Records.ConvertChildRefs | smwmerge.py:481-495 | the child count becomes `n` when reading a file and the number of children when reading merged text; nothing else changes value |
| Records.Build | smwmerge.py:449-479 | the name is `Nm` or else `Cmn1`, the type `ObjTp`, the parent `int(PrH)` or 0, the ids `H`/`H-A`/`H-B`; a record is a parent iff it has `mC` and is not a device; a parent's body has its child references converted, any other body is kept |
| Records.SetRef | smwmerge.py:570-577 | `H` (added if absent) and the record's id become the value; nothing else changes |
| Records.FixSignals | smwmerge.py:579-597 | only symbols change: each port value is replaced through the table; it raises iff some port value is missing from it |
| Records.FixSignalsRoundTrip | smwmerge.py:627-647 | ports translated to names and back through inverse tables give the record back |
| Snapshots.NonEmpty | smwmerge.py:675-677 | no empty chunk is kept, and every other chunk is kept as often as it occurs |
| Snapshots.NonEmptyAppend | smwmerge.py:675-677 | dropping empty chunks keeps the order: the result for a concatenation is the concatenation of the results |
| Snapshots.ParseAll | smwmerge.py:675-678 | succeeds iff every chunk parses, giving their records in order |
| Snapshots.KindOrder | smwmerge.py:681-682 | every type present, once each, nothing else |
| Snapshots.KindOrderFollowsFirstAppearance | smwmerge.py:681-682 | a type listed earlier first occurs earlier in the file |
| Snapshots.Positions | smwmerge.py:682-688 | the indices of a type's records: exactly those, ascending |
| Snapshots.OfKind | smwmerge.py:682-688 | a type's list holds every record of that type and nothing else, once each, in file order |
| Snapshots.RefTable | smwmerge.py:701-709 | each non-empty id of the type maps to the last record carrying it |
| Snapshots.SignalNames | smwmerge.py:660-666 | the reserved signals overridden by the file's signals, id to name |
| Snapshots.FixSymbols | smwmerge.py:691-699 | raises iff no symbol has an id, or some symbol's port is no known signal; otherwise exactly the symbols in the table get translated ports |
| Snapshots.KindsSurviveFix | smwmerge.py:691-699 | translating ports keeps every record's type and id |
| Snapshots.InFile | smwmerge.py:669-699 | succeeds iff every non-empty chunk parses and the symbols' ports translate; the records are then the parsed chunks with ports translated, record k keeping chunk k's type and id, and the type order is that of first appearance |
| Snapshots.DiffOut | smwmerge.py:739-751 | the rendered text of every record of the requested type, once each, in file order |
| Snapshots.DiffOutAbsentKind | smwmerge.py:744-745 | a type the file lacks gives no lines |
| RefTables.RefKinds | smwmerge.py:779-785 | tables exist for signals and for each type with a record carrying any id |
| RefTables.FirstFree | smwmerge.py:897-904 | the first integer from `n` on whose text the final table lacks |
| RefTables.GetUniqueRef | smwmerge.py:874-907 | own id kept; else the first of base, B, A ids not yet claimed; else `H or HB or HA` if free, or the first free increment of it; it raises exactly when that fallback is taken and not an integer, in particular for a record with no id at all; the id is never `''` and is claimed for the record |
| RefTables.GetUniqueRefIncrements | smwmerge.py:897-904 | the fallback counts up from `H or HB or HA`, every integer in between being taken |
| RefTables.Register | smwmerge.py:922-925 | each non-empty parse-time id is bound to the record in its own file's table (base, `A`, `B`); nothing else changes |
| RefTables.ForwardOne | smwmerge.py:917-927 | succeeds iff `getUniqueRef` does, with its error otherwise; the record gets the id `getUniqueRef` chose and the final table becomes the one it returned; its parse-time ids are registered; other types' finals and other records are unchanged |
| RefTables.ForwardList | smwmerge.py:911-927 | only the listed records change, and types are kept |
| RefTables.ForwardListOwns | smwmerge.py:911-927 | after the pass every listed record owns its id in the final table |
| RefTables.OwnedIdsDistinct | smwmerge.py:874-907 | two records owning ids in one final table have different ids |
| RefTables.ForwardType | smwmerge.py:911-927 | a type with no record raises; otherwise record types kept and other types' final tables unchanged |
| RefTables.ForwardAll | smwmerge.py:1009-1010 | every type visited in order; record types kept; the final tables of types not visited unchanged |
| RefTables.ForwardAllNeedsRecords | smwmerge.py:1009-1010 | a visited type without records raises |
| RefTables.ForwardAllOwns | smwmerge.py:1009-1010 | after the pass each record of every visited type owns its id |
| RefTables.ForwardAllValid | smwmerge.py:911-927 | every table entry still points at a record or a reserved signal |
| OutFiles.Visit | smwmerge.py:1009 | each key once, only keys of the table, and all of them when the order lists them |
| OutFiles.Hide | smwmerge.py:786-788 | only signals with an id become hidden; nothing else changes |
| OutFiles.Initial | smwmerge.py:756-763 | tables exist exactly for the reference types, final tables pre-claim `''`, and every entry is valid |
| OutFiles.Lookup | smwmerge.py:831-839 | absent tables or sides miss; the base side finds the base entry; the final table finds its owner and raises only for `''`; a hit is a valid record or reserved signal |
| OutFiles.LookupSideFallsBack | smwmerge.py:36-45 | an `A`/`B` lookup finds its own entry, and otherwise whatever the base lookup finds |
| OutFiles.ForwardOneRegisters | smwmerge.py:917-927 | after a record is given its id, each of its non-empty parse-time ids looked up in its own file's table, and its new id in the final table, find that record |
| OutFiles.CorrectKey | smwmerge.py:812-839 | an absent key or a miss leaves the record as it was; a hit sets the value to the target's `H`, keeping the side tag |
| OutFiles.ChildJobs | smwmerge.py:864-871 | exactly the children `C1` … up to the first absent one, into the record's own type |
| OutFiles.CorrectRecord | smwmerge.py:846-870 | raises iff one of its corrections does; each `SmH`, `CmH`, `DbH`, `PrH` and child key ends as its own correction of the original record leaves it; no other key changes |
| OutFiles.CorrectKeysIndependent | smwmerge.py:846-870 | corrections of distinct keys applied in sequence equal each applied to the original record |
| OutFiles.CorrectAll | smwmerge.py:841-870 | each record corrected; raises iff some correction does |
| OutFiles.AddBack | smwmerge.py:932-943 | every entry is filed under its own name; the names are the earlier ones plus those of the visited entries; a visited name maps to an entry of this table, and any other keeps its earlier entry |
| OutFiles.SignalBack | smwmerge.py:1013-1015 | the back table files exactly the names of the visited base, `A` and `B` signal entries, each under its own name; `B`'s entry wins over `A`'s, which wins over the base's |
| OutFiles.SignalBackComplete | smwmerge.py:1013-1015 | with an order that visits every key, every entry of the three signal tables has its name filed |
| OutFiles.FixPorts | smwmerge.py:1019-1021 | every record becomes its `fixSignals` translation through the name-to-id table, its ports re-encoded; a record stays hidden iff it was and no symbol port names it; raises iff some port name is unknown |
| OutFiles.Shown | smwmerge.py:1032-1037 | the text of every record that is not hidden and renders non-empty, once each, in file order |
| OutFiles.ShownLines | smwmerge.py:1029-1040 | only visible non-empty texts, and each of those whose type is in the order |
| OutFiles.ShownLinesAppend | smwmerge.py:1029-1040 | the types are written one after the other, each type giving its shown records in file order |
| OutFiles.Repair | smwmerge.py:1003-1021 | succeeds iff parsing, the forward pass, the port fix and the cross-reference correction all do, in that order, with the first stage's error otherwise; the result is the corrected state; it is valid, has one record per non-empty chunk, and tables for exactly the reference types |
| OutFiles.RepairGivesUniqueIds | smwmerge.py:874-926 | after the repair no two records of a type with tables share an id |
| OutFiles.OutFile | smwmerge.py:1029-1040 | a text exists exactly when the repair succeeds, and otherwise carries the repair's error; the text is the CRLF-joined shown lines of the repaired records, types in order of first appearance |
| Driver.MergeKind | smwmerge.py:1069-1077 | a type without a strategy contributes nothing; any other is merged with its strategy |
| Driver.MergeKinds | smwmerge.py:1069-1083 | the run completes only if every type's merge does; the flag is the or of the verdicts and is always false |
| Driver.MergeKindsSingle | smwmerge.py:1076-1083 | a single type's run is that type's merge, so with `MergeKindsAppend` the lines are each type's lines concatenated in order |
| Driver.MergeKindsAppend | smwmerge.py:1069-1083 | merging two lists of types one after the other concatenates the two results |
| Driver.DroppedKindIsInvisible | smwmerge.py:1076-1083 | removing `Bw` from the type order changes nothing |
| Driver.UnmappedKindIsConservative | smwmerge.py:1070-1073 | an unmapped type merges like SMW conservative, without conflict |
| Driver.Merge | smwmerge.py:1059-1089 | a program is written iff every merge completes and `outFile` succeeds, and its text is `outFile` of the concatenated lines; it raises iff a merge or `outFile` raises, with that error; it never reports a conflict |

## Left out

- `difflib.Differ` is a parameter, `differ`. The model assumes only what the lemmas require of it,
  as `IsAlignment`.
- `Order` and `masterObjOrder` (smwmerge.py:331-362): the order of the types is the `types`
  parameter of `Driver.Merge`.
- Python dictionary iteration order is the `order` parameter (`OutFiles.KeyOrder`). It is used for
  the order in which `outFile` visits types and the back-table sources. Loops whose result does not
  depend on the order are modelled as maps.
- `MergeMaxKeys._lastDitchMerge` (smwmerge.py:281-301) indexes a list with a string. It raises on any
  non-empty input. On empty input it returns `''` and the conflict manager raises. Both cases are
  modelled as a raise. The line logic is not modelled.
- RefTables.GetUniqueRef: does not model the `float` increment (smwmerge.py:904). A non-integer
  fallback id is the error `NonIntegerId`.
- Text.PyInt: does not accept the whitespace that Python 2's `int()` allows around the number and
  between the sign and the digits (`int('- 5')` is -5).
- Strategies.PreprocessAdd: the SMW regular expressions use `re.M`, which also matches after a
  lone LF. The model treats a record as CRLF-separated lines only.
- `tkMessageBox.showerror` (smwmerge.py:325) and all `logging` calls have no effect on the result.
- `read_file`, `main`, `OptionParser`, and writing the output (smwmerge.py:1047-1134) are I/O.
- `Merge.__init__`'s two-way and empty branches (smwmerge.py:67-74) are not modelled. `merge()`
  always passes three lists, and `[] <> False` holds, so only `threeWay` runs.
- `twoWay`'s and `threeWay`'s side names are fixed to `A` and `B`, which every caller uses.
- The shared default tables of `buildRefTables` and `buildBackReference` start empty. Each run
  builds one `outFile`.
- `redict` lookups raise `KeyError` through `__missing__`, which `correctObjectCrossRef` catches.
  This is modelled as a miss.
- Setting `hidden` on the class-level reserved signal objects has no visible effect and is not
  modelled.
- ThreeWayMerge.Walk: states the conflict flag, the verdicts and the error only. The lines of the
  conflict and last-ditch branches are stated by `WalkConflictingAdditions` and
  `WalkLastDitchAdditions` for the inputs they cover.
- ThreeWayMerge.ThreeWay: states the conflict flag only. The merged lines are stated by the
  `ThreeWayUnchanged…`, `WalkIdentical` and `WalkTail` lemmas for the cases they cover.
- OutFiles.AddBack: says a visited name maps to some entry of the table with that name, not that it
  is the last such entry visited.
- OutFiles.SignalBack: says which of the three tables a name's entry comes from, not which of several
  same-named entries of one table wins (the last one the loop visits), since that depends on the
  dictionary order.
- `__len__`, `__repr__`, `__getitem__` and the commented-out code are not modelled.

=== FILE: alignment.dfy ===
/** The line alignments the merge consumes. The sequence differ that produces
    them is not modelled: an alignment is an input, and the differ is an
    opaque function value wherever the tool calls it itself. */
module Alignment {

  /** The two-character status prefix of a differ line: `'  '`, `'- '`, `'+ '`, `'? '`. */
  datatype Tag = Same | Removed | Added | Hint

  /** One differ line: its status and the text after the two-character prefix.
      Two ops are equal exactly when the differ lines are equal strings. */
  datatype Op = Op(tag: Tag, text: string)

  /** The sequence differ, given the left and right line lists. */
  type Differ = (seq<string>, seq<string>) -> seq<Op>

  predicate IsHint(op: Op)
  {
    op.tag == Hint
  }

  /** The ops of `ops` that are not hints, in order. */
  function DropHints(ops: seq<Op>): (r: seq<Op>)
    ensures forall k :: 0 <= k < |r| ==> !IsHint(r[k])
    ensures |r| <= |ops|
  {
    if |ops| == 0 then []
    else if IsHint(ops[0]) then DropHints(ops[1..])
    else [ops[0]] + DropHints(ops[1..])
  }

  /** `eliminateInlineMarkers`: deletes hint entries walking backwards from the
      last index down to index 1; the entry at index 0 is never examined. */
  function EliminateInlineMarkers(ops: seq<Op>): (r: seq<Op>)
    ensures |ops| == 0 <==> |r| == 0
    ensures |ops| > 0 ==> r[0] == ops[0] && r[1..] == DropHints(ops[1..])
    ensures forall k :: 1 <= k < |r| ==> !IsHint(r[k])
  {
    if |ops| == 0 then [] else [ops[0]] + DropHints(ops[1..])
  }

  /** With no hint at all, nothing is removed. */
  lemma {:induction false} DropHintsNoHints(ops: seq<Op>)
    requires forall k :: 0 <= k < |ops| ==> !IsHint(ops[k])
    ensures DropHints(ops) == ops
  {
    if |ops| > 0 {
      DropHintsNoHints(ops[1..]);
    }
  }

  /** Removing the inline markers twice is the same as removing them once. */
  lemma EliminateInlineMarkersIdempotent(ops: seq<Op>)
    ensures EliminateInlineMarkers(EliminateInlineMarkers(ops)) == EliminateInlineMarkers(ops)
  {
    var r := EliminateInlineMarkers(ops);
    if |r| > 0 {
      DropHintsNoHints(r[1..]);
    }
  }

  /** Hint-free alignments are left unchanged. */
  lemma EliminateInlineMarkersNoHints(ops: seq<Op>)
    requires forall k :: 0 <= k < |ops| ==> !IsHint(ops[k])
    ensures EliminateInlineMarkers(ops) == ops
  {
    if |ops| > 0 {
      DropHintsNoHints(ops[1..]);
    }
  }

  /** The lines an alignment takes from its left list: `'  '` and `'- '` entries. */
  function LeftLines(ops: seq<Op>): seq<string>
  {
    if |ops| == 0 then []
    else if ops[0].tag == Same || ops[0].tag == Removed then [ops[0].text] + LeftLines(ops[1..])
    else LeftLines(ops[1..])
  }

  /** The lines an alignment takes from its right list: `'  '` and `'+ '` entries. */
  function RightLines(ops: seq<Op>): seq<string>
  {
    if |ops| == 0 then []
    else if ops[0].tag == Same || ops[0].tag == Added then [ops[0].text] + RightLines(ops[1..])
    else RightLines(ops[1..])
  }

  /** `ops` is an alignment of `left` against `right`: reading the `'  '`/`'- '`
      entries gives `left`, reading the `'  '`/`'+ '` entries gives `right`. */
  predicate IsAlignment(left: seq<string>, right: seq<string>, ops: seq<Op>)
  {
    LeftLines(ops) == left && RightLines(ops) == right
  }

  /** Every entry is an unchanged line. */
  predicate AllSame(ops: seq<Op>)
  {
    forall k :: 0 <= k < |ops| ==> ops[k].tag == Same
  }

  /** An all-unchanged alignment reads the same list on both sides. */
  lemma {:induction false} AllSameAlignsEqualLists(ops: seq<Op>)
    requires AllSame(ops)
    ensures LeftLines(ops) == RightLines(ops)
  {
    if |ops| > 0 {
      AllSameAlignsEqualLists(ops[1..]);
    }
  }
}

=== FILE: driver.dfy ===
/** `merge()`: every record type merged with its strategy, the results
    concatenated, and the whole repaired by `outFile`. */
module Driver {
  import opened Text
  import opened Outcomes
  import opened Alignment
  import opened Strategies
  import opened ThreeWayMerge
  import Snapshots
  import OutFiles

  /** The merge of one type, or nothing for a type whose table entry is `False`. */
  function MergeKind(differ: Differ, a: Snapshots.Snapshot, b: Snapshots.Snapshot, x: Snapshots.Snapshot, t: string): (w: Outcome)
    ensures StrategyFor(t).None? ==> w == Done(false, [], [])
    ensures StrategyFor(t).Some? ==>
              w == ThreeWay(StrategyFor(t).value, differ, Snapshots.DiffOut(a, t), Snapshots.DiffOut(b, t), Snapshots.DiffOut(x, t))
  {
    match StrategyFor(t)
    case None => Done(false, [], [])
    case Some(s) => ThreeWay(s, differ, Snapshots.DiffOut(a, t), Snapshots.DiffOut(b, t), Snapshots.DiffOut(x, t))
  }

  /** The loop over the types: the first merge that hangs or raises ends the
      run; otherwise the conflict flags are or-ed and the lines concatenated
      in type order. No type uses the diff3 strategy, the only one whose
      conflict manager leaves a conflict unresolved, so the flag stays false. */
  function MergeKinds(differ: Differ, a: Snapshots.Snapshot, b: Snapshots.Snapshot, x: Snapshots.Snapshot, types: seq<string>): (w: Outcome)
    ensures w.Done? ==> (w.conflict <==> false in w.verdicts)
    ensures w.Done? ==> !w.conflict
    ensures w.Done? ==> forall k :: 0 <= k < |types| ==> MergeKind(differ, a, b, x, types[k]).Done?
  {
    if |types| == 0 then Done(false, [], [])
    else
      match MergeKind(differ, a, b, x, types[0])
      case Diverges => Diverges
      case Failed(e) => Failed(e)
      case Done(c, lines, verdicts) =>
        var rest := MergeKinds(differ, a, b, x, types[1..]);
        assert forall k :: 1 <= k < |types| ==> types[k] == types[1..][k - 1];
        Then(lines, verdicts, rest)
  }

  /** Merging a list of types in two parts merges each part and joins the results. */
  lemma {:induction false} MergeKindsAppend(differ: Differ, a: Snapshots.Snapshot, b: Snapshots.Snapshot, x: Snapshots.Snapshot, t1: seq<string>, t2: seq<string>)
    ensures var w1 := MergeKinds(differ, a, b, x, t1);
            MergeKinds(differ, a, b, x, t1 + t2) == if w1.Done? then Then(w1.lines, w1.verdicts, MergeKinds(differ, a, b, x, t2)) else w1
  {
    if |t1| > 0 {
      assert (t1 + t2)[0] == t1[0];
      assert (t1 + t2)[1..] == t1[1..] + t2;
      MergeKindsAppend(differ, a, b, x, t1[1..], t2);
      var head := MergeKind(differ, a, b, x, t1[0]);
      var tail := MergeKinds(differ, a, b, x, t1[1..]);
      if head.Done? {
        assert MergeKinds(differ, a, b, x, t1) == Then(head.lines, head.verdicts, tail);
        assert MergeKinds(differ, a, b, x, t1 + t2) == Then(head.lines, head.verdicts, MergeKinds(differ, a, b, x, t1[1..] + t2));
        if tail.Done? {
          ThenThen(head.lines, head.verdicts, tail.lines, tail.verdicts, MergeKinds(differ, a, b, x, t2));
        }
      }
    } else {
      assert t1 + t2 == t2;
      var rest := MergeKinds(differ, a, b, x, t2);
      if rest.Done? {
        assert [] + rest.lines == rest.lines && [] + rest.verdicts == rest.verdicts;
      }
    }
  }

  /** A single type merges exactly as `MergeKind` does; with `MergeKindsAppend`
      this fixes the lines of any type list as the concatenation, in order, of
      each type's lines. */
  lemma MergeKindsSingle(differ: Differ, a: Snapshots.Snapshot, b: Snapshots.Snapshot, x: Snapshots.Snapshot, t: string)
    ensures var w := MergeKinds(differ, a, b, x, [t]);
            var one := MergeKind(differ, a, b, x, t);
            && (w.Done? <==> one.Done?)
            && (w.Done? ==> w.lines == one.lines && w.verdicts == one.verdicts)
            && (!w.Done? ==> w == one)
  {
    assert [t][0] == t && [t][1..] == [];
    var one := MergeKind(differ, a, b, x, t);
    if one.Done? {
      assert one.lines + [] == one.lines && one.verdicts + [] == one.verdicts;
    }
  }

  /** Prefixing twice is prefixing once with both parts. */
  lemma ThenThen(l1: seq<string>, v1: seq<bool>, l2: seq<string>, v2: seq<bool>, rest: Outcome)
    ensures Then(l1, v1, Then(l2, v2, rest)) == Then(l1 + l2, v1 + v2, rest)
  {
    if rest.Done? {
      assert l1 + (l2 + rest.lines) == (l1 + l2) + rest.lines;
      assert v1 + (v2 + rest.verdicts) == (v1 + v2) + rest.verdicts;
    }
  }

  /** A type whose table entry is `False` can be removed from the order
      without changing anything. */
  lemma {:induction false} DroppedKindIsInvisible(differ: Differ, a: Snapshots.Snapshot, b: Snapshots.Snapshot, x: Snapshots.Snapshot, t1: seq<string>, t2: seq<string>)
    ensures MergeKinds(differ, a, b, x, t1 + ["Bw"] + t2) == MergeKinds(differ, a, b, x, t1 + t2)
  {
    MergeKindsAppend(differ, a, b, x, t1 + ["Bw"], t2);
    MergeKindsAppend(differ, a, b, x, t1, ["Bw"]);
    MergeKindsAppend(differ, a, b, x, t1, t2);
    assert MergeKinds(differ, a, b, x, ["Bw"]) == Done(false, [], []) by {
      assert ["Bw"][1..] == [];
    }
    var w1 := MergeKinds(differ, a, b, x, t1);
    if w1.Done? {
      assert w1.lines + [] == w1.lines;
      assert w1.verdicts + [] == w1.verdicts;
    }
  }

  /** A type the table does not name is merged like an SMW type of the conservative kind. */
  lemma UnmappedKindIsConservative(differ: Differ, a: Snapshots.Snapshot, b: Snapshots.Snapshot, x: Snapshots.Snapshot, t: string)
    requires t !in {"", "Sm", "Sg", "FSgntr", "Bw"}
    ensures MergeKind(differ, a, b, x, t) == ThreeWay(SMWMergeConservative, differ, Snapshots.DiffOut(a, t), Snapshots.DiffOut(b, t), Snapshots.DiffOut(x, t))
    ensures var w := MergeKind(differ, a, b, x, t); w.Done? ==> !w.conflict
  {
  }

  /** What a run of the tool ends in: the repaired program and the conflict
      flag, a merge that never ends, or an exception. */
  datatype Run = Written(conflict: bool, text: string) | Hangs | Raises(error: Error)

  /** `merge()` without its output: the types in `types` (the order every
      read file's types were integrated in) merged and handed to `outFile`. */
  function Merge(differ: Differ, order: OutFiles.KeyOrder, a: Snapshots.Snapshot, b: Snapshots.Snapshot, x: Snapshots.Snapshot, types: seq<string>): (r: Run)
    ensures r.Written? <==> MergeKinds(differ, a, b, x, types).Done? && OutFiles.OutFile(MergeKinds(differ, a, b, x, types).lines, order).Ok?
    ensures r.Written? ==> r.conflict == MergeKinds(differ, a, b, x, types).conflict && !r.conflict
    ensures r.Hangs? <==> MergeKinds(differ, a, b, x, types).Diverges?
    ensures r.Written? ==> r.text == OutFiles.OutFile(MergeKinds(differ, a, b, x, types).lines, order).value
    ensures var w := MergeKinds(differ, a, b, x, types);
            r.Raises? <==> w.Failed? || (w.Done? && OutFiles.OutFile(w.lines, order).Err?)
    ensures var w := MergeKinds(differ, a, b, x, types);
            r.Raises? ==> r.error == (if w.Failed? then w.error else OutFiles.OutFile(w.lines, order).error)
  {
    match MergeKinds(differ, a, b, x, types)
    case Diverges => Hangs
    case Failed(e) => Raises(e)
    case Done(conflict, lines, _) =>
      match OutFiles.OutFile(lines, order)
      case Err(e) => Raises(e)
      case Ok(text) => Written(conflict, text)
  }
}

=== FILE: merge.dfy ===
/** The three-way line merge `Merge.threeWay`: two alignments of the common
    ancestor, one against each side, walked with two cursors. */
module ThreeWayMerge {
  import opened Text
  import opened Outcomes
  import opened Alignment
  import opened Strategies

  /** What `threeWay` does: returns `(had_conflict, m)`, loops forever, or raises.
      `verdicts` lists the `resolved` flag of every conflict-manager call in order. */
  datatype Outcome =
    | Done(conflict: bool, lines: seq<string>, verdicts: seq<bool>)
    | Diverges
    | Failed(error: Error)

  /** Every entry's text through `_preprocessAdd` for one side, whatever its tag. */
  function Preprocessed(s: Strategy, ops: seq<Op>, side: Side): (r: seq<string>)
    ensures |r| == |ops|
    ensures forall k :: 0 <= k < |ops| ==> r[k] == PreprocessAdd(s, ops[k].text, side)
  {
    seq(|ops|, k requires 0 <= k < |ops| => PreprocessAdd(s, ops[k].text, side))
  }

  /** One side's edits applied to the ancestor: unchanged lines as they are,
      added lines preprocessed for that side, removed lines and hints dropped. */
  function Applied(s: Strategy, ops: seq<Op>, side: Side): seq<string>
  {
    if |ops| == 0 then []
    else
      (match ops[0].tag
       case Same => [ops[0].text]
       case Added => [PreprocessAdd(s, ops[0].text, side)]
       case _ => []) + Applied(s, ops[1..], side)
  }

  /** The end of the run of non-`'  '` entries starting at `i`. */
  function RunEnd(ops: seq<Op>, i: nat): (k: nat)
    requires i <= |ops|
    ensures i <= k <= |ops|
    ensures forall m :: i <= m < k ==> ops[m].tag != Same
    ensures k < |ops| ==> ops[k].tag == Same
    decreases |ops| - i
  {
    if i == |ops| || ops[i].tag == Same then i else RunEnd(ops, i + 1)
  }

  /** Prefixes a step's output to the rest of the walk. */
  function Then(lines: seq<string>, verdicts: seq<bool>, rest: Outcome): (w: Outcome)
    ensures rest.Done? <==> w.Done?
    ensures w.Done? ==> w.lines == lines + rest.lines && w.verdicts == verdicts + rest.verdicts
    ensures w.Done? ==> (w.conflict <==> (false in verdicts || rest.conflict))
    ensures !rest.Done? ==> w == rest
  {
    match rest
    case Done(c, ls, vs) => Done(false in verdicts || c, lines + ls, verdicts + vs)
    case _ => rest
  }

  /** The loop of `threeWay` from cursors `i` and `j`, where `last` holds the
      statuses seen on the previous iteration. The loop makes no progress
      exactly when both cursors sit on unchanged lines with different text and
      the last-ditch merge declines: that is `Diverges`. */
  function Walk(s: Strategy, differ: Differ, xa: seq<Op>, xb: seq<Op>, i: nat, j: nat, last: LastStatus): (w: Outcome)
    requires i <= |xa| && j <= |xb|
    ensures w.Done? ==> (w.conflict <==> false in w.verdicts)
    ensures w.Done? && s.policy != Diff3 ==> !w.conflict
    ensures w.Done? && s.policy == Diff3 ==> (w.conflict <==> |w.verdicts| > 0)
    ensures w.Failed? ==> s.policy == MaxKeys
    decreases |xa| - i + |xb| - j
  {
    if i == |xa| || j == |xb| then
      Done(false, Preprocessed(s, xa[i..], A) + Preprocessed(s, xb[j..], B), [])
    else
      var a := xa[i];
      var b := xb[j];
      var now := LastStatus(Some(a.tag), Some(b.tag));
      if a == b && a.tag == Same then
        Then([a.text], [], Walk(s, differ, xa, xb, i + 1, j + 1, now))
      else if a == b && a.tag == Added then
        Then([PreprocessAdd(s, a.text, A)], [], Walk(s, differ, xa, xb, i + 1, j + 1, now))
      else if a.text == b.text && (a.tag == Removed || b.tag == Removed) then
        Walk(s, differ, xa, xb, i + 1, j + 1, now)
      else if a.tag == Added && b.tag == Same then
        Then([PreprocessAdd(s, a.text, A)], [], Walk(s, differ, xa, xb, i + 1, j, now))
      else if b.tag == Added && a.tag == Same then
        Then([PreprocessAdd(s, b.text, B)], [], Walk(s, differ, xa, xb, i, j + 1, now))
      else
        var ditch := LastDitchMerge(s, differ, a.text, b.text);
        if ditch.Raised? then Failed(MaxKeysFailure)
        else if ditch.Merged? && ditch.element != "" then
          Then([ditch.element], [], Walk(s, differ, xa, xb, i + 1, j + 1, now))
        else
          var endA := RunEnd(xa, i);
          var endB := RunEnd(xb, j);
          if endA == i && endB == j then Diverges
          else
            match Resolve(s.policy, Preprocessed(s, xa[i..endA], A), Preprocessed(s, xb[j..endB], B), last)
            case Err(e) => Failed(e)
            case Ok(r) => Then(r.1, [r.0], Walk(s, differ, xa, xb, endA, endB, now))
  }

  /** `threeWay(a, b, x)`: align the ancestor against each side, strip the
      inline hints, and walk from the start with no previous statuses. */
  function ThreeWay(s: Strategy, differ: Differ, a: seq<string>, b: seq<string>, x: seq<string>): (w: Outcome)
    ensures w.Done? ==> (w.conflict <==> false in w.verdicts)
    ensures w.Done? && s.policy != Diff3 ==> !w.conflict
  {
    var xa := EliminateInlineMarkers(differ(x, a));
    var xb := EliminateInlineMarkers(differ(x, b));
    Walk(s, differ, xa, xb, 0, 0, LastStatus(None, None))
  }

  /** Once a cursor reaches its end, the walk appends every remaining entry of
      the other alignment, whatever its tag, through `_preprocessAdd`. */
  lemma WalkTail(s: Strategy, differ: Differ, xa: seq<Op>, xb: seq<Op>, i: nat, j: nat, last: LastStatus)
    requires i <= |xa| && j <= |xb| && (i == |xa| || j == |xb|)
    ensures var w := Walk(s, differ, xa, xb, i, j, last);
            && w.Done? && !w.conflict && w.verdicts == []
            && |w.lines| == (|xa| - i) + (|xb| - j)
            && (forall k :: i <= k < |xa| ==> w.lines[k - i] == PreprocessAdd(s, xa[k].text, A))
            && (forall k :: j <= k < |xb| ==> w.lines[(|xa| - i) + (k - j)] == PreprocessAdd(s, xb[k].text, B))
  {
  }

  /** Both sides only add lines, from different first lines on: for a plain
      strategy the last-ditch merge declines, so the whole of both runs goes to
      the conflict manager once, and its verdict and lines are the result. */
  lemma WalkConflictingAdditions(s: Strategy, differ: Differ, xa: seq<Op>, xb: seq<Op>, last: LastStatus)
    requires |xa| > 0 && |xb| > 0
    requires forall k :: 0 <= k < |xa| ==> xa[k].tag == Added
    requires forall k :: 0 <= k < |xb| ==> xb[k].tag == Added
    requires xa[0].text != xb[0].text && !s.smwHooks
    ensures Walk(s, differ, xa, xb, 0, 0, last) ==
              if s.policy == MaxKeys then Failed(MaxKeysFailure)
              else match Resolve(s.policy, Preprocessed(s, xa, A), Preprocessed(s, xb, B), last)
                   case Err(e) => Failed(e)
                   case Ok(r) => Done(!r.0, r.1, [r.0])
  {
    assert xa[0..|xa|] == xa && xb[0..|xb|] == xb;
    var rest := Walk(s, differ, xa, xb, |xa|, |xb|, LastStatus(Some(Added), Some(Added)));
    assert xa[|xa|..] == [] && xb[|xb|..] == [];
    assert rest == Done(false, [], []);
    var res := Resolve(s.policy, Preprocessed(s, xa, A), Preprocessed(s, xb, B), last);
    if s.policy != MaxKeys && res.Ok? {
      assert res.value.1 + [] == res.value.1 && [res.value.0] + [] == [res.value.0];
    }
  }

  /** One added line on each side, different, merged by an SMW strategy: when
      the two-way merge of the two elements is a non-empty record, it is the
      whole output, with no conflict-manager call. */
  lemma WalkLastDitchAdditions(s: Strategy, differ: Differ, ea: string, eb: string, last: LastStatus)
    requires ea != eb && s.smwHooks && s.policy != MaxKeys
    requires var merged := Join(TwoWay(s, differ(Split(ea, CRLF), Split(eb, CRLF))), CRLF);
             merged != "" && Records.ParseBody(merged).Ok?
    ensures Walk(s, differ, [Op(Added, ea)], [Op(Added, eb)], 0, 0, last) ==
              Done(false, [Join(TwoWay(s, differ(Split(ea, CRLF), Split(eb, CRLF))), CRLF)], [])
  {
    var merged := Join(TwoWay(s, differ(Split(ea, CRLF), Split(eb, CRLF))), CRLF);
    assert LastDitchMerge(s, differ, ea, eb) == Merged(merged);
    WalkMergedAdditions(s, differ, ea, eb, merged, last);
  }

  /** The walk over one added line on each side, once the last-ditch merge
      has offered a non-empty element. */
  lemma WalkMergedAdditions(s: Strategy, differ: Differ, ea: string, eb: string, merged: string, last: LastStatus)
    requires ea != eb && merged != "" && LastDitchMerge(s, differ, ea, eb) == Merged(merged)
    ensures Walk(s, differ, [Op(Added, ea)], [Op(Added, eb)], 0, 0, last) == Done(false, [merged], [])
  {
    var xa := [Op(Added, ea)];
    var xb := [Op(Added, eb)];
    WalkTail(s, differ, xa, xb, 1, 1, LastStatus(Some(Added), Some(Added)));
    assert [merged] + [] == [merged];
  }

  /** With no hints, an alignment whose right side is empty adds nothing. */
  lemma {:induction false} NoRightSideApplied(s: Strategy, ops: seq<Op>, side: Side)
    requires forall k :: 0 <= k < |ops| ==> ops[k].tag != Hint
    requires LeftLines(ops) == []
    ensures Applied(s, ops, side) == Preprocessed(s, ops, side)
  {
    if |ops| > 0 {
      assert ops[0].tag == Added;
      NoRightSideApplied(s, ops[1..], side);
      assert Preprocessed(s, ops, side) == [PreprocessAdd(s, ops[0].text, side)] + Preprocessed(s, ops[1..], side);
    }
  }

  /** Reading an alignment from cursor `i` starts with the entry at `i`. */
  lemma ReadFrom(s: Strategy, ops: seq<Op>, i: nat, side: Side)
    requires i < |ops|
    ensures ops[i..][1..] == ops[i + 1..]
    ensures LeftLines(ops[i..]) == (if ops[i].tag == Same || ops[i].tag == Removed then [ops[i].text] else []) + LeftLines(ops[i + 1..])
    ensures Applied(s, ops[i..], side) ==
            (match ops[i].tag
             case Same => [ops[i].text]
             case Added => [PreprocessAdd(s, ops[i].text, side)]
             case _ => []) + Applied(s, ops[i + 1..], side)
  {
    assert ops[i..][1..] == ops[i + 1..];
  }

  /** Two alignments that read the same left list and both start with a line
      of it agree on that line and on the rest. */
  lemma SameLeftHeads(xs: seq<Op>, ys: seq<Op>)
    requires |xs| > 0 && |ys| > 0 && LeftLines(xs) == LeftLines(ys)
    requires xs[0].tag == Same || xs[0].tag == Removed
    requires ys[0].tag == Same || ys[0].tag == Removed
    ensures xs[0].text == ys[0].text
    ensures LeftLines(xs[1..]) == LeftLines(ys[1..])
  {
    var l := LeftLines(xs);
    assert l == [xs[0].text] + LeftLines(xs[1..]);
    assert l == [ys[0].text] + LeftLines(ys[1..]);
    assert l[1..] == LeftLines(xs[1..]) == LeftLines(ys[1..]);
  }

  /** Side A changed nothing: the walk yields side B's edits applied to the
      ancestor, with no conflict and no conflict-manager call. */
  lemma {:induction false} WalkUnchangedA(s: Strategy, differ: Differ, xa: seq<Op>, xb: seq<Op>, i: nat, j: nat, last: LastStatus)
    requires i <= |xa| && j <= |xb|
    requires forall k :: i <= k < |xa| ==> xa[k].tag == Same
    requires forall k :: j <= k < |xb| ==> xb[k].tag != Hint
    requires LeftLines(xa[i..]) == LeftLines(xb[j..])
    ensures Walk(s, differ, xa, xb, i, j, last) == Done(false, Applied(s, xb[j..], B), [])
    decreases |xa| - i + |xb| - j
  {
    if i < |xa| {
      ReadFrom(s, xa, i, A);
    }
    if j < |xb| {
      ReadFrom(s, xb, j, B);
    }
    if i == |xa| {
      NoRightSideApplied(s, xb[j..], B);
    } else if j < |xb| {
      var a := xa[i];
      var b := xb[j];
      var now := LastStatus(Some(a.tag), Some(b.tag));
      if b.tag == Same {
        SameLeftHeads(xa[i..], xb[j..]);
        WalkUnchangedA(s, differ, xa, xb, i + 1, j + 1, now);
      } else if b.tag == Removed {
        SameLeftHeads(xa[i..], xb[j..]);
        WalkUnchangedA(s, differ, xa, xb, i + 1, j + 1, now);
      } else if b.tag == Added {
        WalkUnchangedA(s, differ, xa, xb, i, j + 1, now);
      }
    }
  }

  /** Side B changed nothing: the walk yields side A's edits applied to the
      ancestor, with no conflict and no conflict-manager call. */
  lemma {:induction false} WalkUnchangedB(s: Strategy, differ: Differ, xa: seq<Op>, xb: seq<Op>, i: nat, j: nat, last: LastStatus)
    requires i <= |xa| && j <= |xb|
    requires forall k :: i <= k < |xa| ==> xa[k].tag != Hint
    requires forall k :: j <= k < |xb| ==> xb[k].tag == Same
    requires LeftLines(xa[i..]) == LeftLines(xb[j..])
    ensures Walk(s, differ, xa, xb, i, j, last) == Done(false, Applied(s, xa[i..], A), [])
    decreases |xa| - i + |xb| - j
  {
    if i < |xa| {
      ReadFrom(s, xa, i, A);
    }
    if j < |xb| {
      ReadFrom(s, xb, j, B);
    }
    if j == |xb| {
      NoRightSideApplied(s, xa[i..], A);
    } else if i < |xa| {
      var a := xa[i];
      var b := xb[j];
      var now := LastStatus(Some(a.tag), Some(b.tag));
      if a.tag == Same {
        SameLeftHeads(xa[i..], xb[j..]);
        WalkUnchangedB(s, differ, xa, xb, i + 1, j + 1, now);
      } else if a.tag == Removed {
        SameLeftHeads(xa[i..], xb[j..]);
        WalkUnchangedB(s, differ, xa, xb, i + 1, j + 1, now);
      } else if a.tag == Added {
        WalkUnchangedB(s, differ, xa, xb, i + 1, j, now);
      }
    }
  }

  /** Both sides made the same edits: no conflict, and the result is those
      edits applied once, added lines preprocessed for side A. */
  lemma {:induction false} WalkIdentical(s: Strategy, differ: Differ, xs: seq<Op>, i: nat, last: LastStatus)
    requires i <= |xs|
    requires forall k :: i <= k < |xs| ==> xs[k].tag != Hint
    ensures Walk(s, differ, xs, xs, i, i, last) == Done(false, Applied(s, xs[i..], A), [])
    decreases |xs| - i
  {
    if i < |xs| {
      ReadFrom(s, xs, i, A);
      WalkIdentical(s, differ, xs, i + 1, LastStatus(Some(xs[i].tag), Some(xs[i].tag)));
    }
  }

  /** Hints carry no line of either side and no edit. */
  lemma {:induction false} DropHintsKeepsReadings(s: Strategy, ops: seq<Op>, side: Side)
    ensures LeftLines(DropHints(ops)) == LeftLines(ops)
    ensures RightLines(DropHints(ops)) == RightLines(ops)
    ensures Applied(s, DropHints(ops), side) == Applied(s, ops, side)
  {
    if |ops| > 0 {
      DropHintsKeepsReadings(s, ops[1..], side);
      if !IsHint(ops[0]) {
        assert ([ops[0]] + DropHints(ops[1..]))[1..] == DropHints(ops[1..]);
      }
    }
  }

  /** For a plain merge, applying an alignment's edits gives its right list. */
  lemma {:induction false} AppliedPlainIsRight(s: Strategy, ops: seq<Op>, side: Side)
    requires !s.smwHooks
    ensures Applied(s, ops, side) == RightLines(ops)
  {
    if |ops| > 0 {
      AppliedPlainIsRight(s, ops[1..], side);
    }
  }

  /** An alignment whose first entry is not a hint loses exactly its hints. */
  lemma MarkersEliminated(ops: seq<Op>)
    requires |ops| == 0 || !IsHint(ops[0])
    ensures EliminateInlineMarkers(ops) == DropHints(ops)
    ensures forall k :: 0 <= k < |EliminateInlineMarkers(ops)| ==> !IsHint(EliminateInlineMarkers(ops)[k])
  {
  }

  /** `threeWay` when side A is the ancestor unchanged: no conflict, and the
      result is side B's edits; for a plain merge that is side B itself. */
  lemma ThreeWayUnchangedA(s: Strategy, differ: Differ, a: seq<string>, b: seq<string>, x: seq<string>)
    requires AllSame(differ(x, a)) && IsAlignment(x, a, differ(x, a))
    requires IsAlignment(x, b, differ(x, b))
    requires |differ(x, b)| == 0 || !IsHint(differ(x, b)[0])
    ensures ThreeWay(s, differ, a, b, x) == Done(false, Applied(s, differ(x, b), B), [])
    ensures !s.smwHooks ==> ThreeWay(s, differ, a, b, x) == Done(false, b, [])
  {
    var xa := differ(x, a);
    var xb := EliminateInlineMarkers(differ(x, b));
    EliminateInlineMarkersNoHints(xa);
    MarkersEliminated(differ(x, b));
    DropHintsKeepsReadings(s, differ(x, b), B);
    assert xa[0..] == xa && xb[0..] == xb;
    WalkUnchangedA(s, differ, xa, xb, 0, 0, LastStatus(None, None));
    if !s.smwHooks {
      AppliedPlainIsRight(s, differ(x, b), B);
    }
  }

  /** `threeWay` when side B is the ancestor unchanged: no conflict, and the
      result is side A's edits; for a plain merge that is side A itself. */
  lemma ThreeWayUnchangedB(s: Strategy, differ: Differ, a: seq<string>, b: seq<string>, x: seq<string>)
    requires IsAlignment(x, a, differ(x, a))
    requires |differ(x, a)| == 0 || !IsHint(differ(x, a)[0])
    requires AllSame(differ(x, b)) && IsAlignment(x, b, differ(x, b))
    ensures ThreeWay(s, differ, a, b, x) == Done(false, Applied(s, differ(x, a), A), [])
    ensures !s.smwHooks ==> ThreeWay(s, differ, a, b, x) == Done(false, a, [])
  {
    var xa := EliminateInlineMarkers(differ(x, a));
    var xb := differ(x, b);
    EliminateInlineMarkersNoHints(xb);
    MarkersEliminated(differ(x, a));
    DropHintsKeepsReadings(s, differ(x, a), A);
    assert xa[0..] == xa && xb[0..] == xb;
    WalkUnchangedB(s, differ, xa, xb, 0, 0, LastStatus(None, None));
    if !s.smwHooks {
      AppliedPlainIsRight(s, differ(x, a), A);
    }
  }

  /** `threeWay` when both sides made the same change: no conflict, and the
      result is that change; for a plain merge it is the common side. */
  lemma ThreeWayBothSame(s: Strategy, differ: Differ, a: seq<string>, x: seq<string>)
    requires IsAlignment(x, a, differ(x, a))
    requires |differ(x, a)| == 0 || !IsHint(differ(x, a)[0])
    ensures ThreeWay(s, differ, a, a, x) == Done(false, Applied(s, differ(x, a), A), [])
    ensures !s.smwHooks ==> ThreeWay(s, differ, a, a, x) == Done(false, a, [])
  {
    var xs := EliminateInlineMarkers(differ(x, a));
    MarkersEliminated(differ(x, a));
    DropHintsKeepsReadings(s, differ(x, a), A);
    assert xs[0..] == xs;
    WalkIdentical(s, differ, xs, 0, LastStatus(None, None));
    if !s.smwHooks {
      AppliedPlainIsRight(s, differ(x, a), A);
    }
  }

  /** The loop can hang on realistic input: with ancestor `[p, q]`, side A
      deleting `p` and side B inserting `r` before it, a merge without the
      SMW hooks hands `[p]` and `[r]` to the conflict manager and is left with
      its cursors on `q` and `p`, both unchanged, for ever. */
  lemma PlainMergeCanHang(s: Strategy, differ: Differ)
    requires !s.smwHooks && s.policy != MaxKeys
    ensures var xa := [Op(Removed, "p"), Op(Same, "q")];
            var xb := [Op(Added, "r"), Op(Same, "p"), Op(Same, "q")];
            && IsAlignment(["p", "q"], ["q"], xa)
            && IsAlignment(["p", "q"], ["r", "p", "q"], xb)
            && Walk(s, differ, xa, xb, 0, 0, LastStatus(None, None)) == Diverges
  {
    var xa := [Op(Removed, "p"), Op(Same, "q")];
    var xb := [Op(Added, "r"), Op(Same, "p"), Op(Same, "q")];
    assert RunEnd(xa, 0) == 1 && RunEnd(xb, 0) == 1;
    assert xa[1] != xb[1];
    assert RunEnd(xa, 1) == 1 && RunEnd(xb, 1) == 1;
    assert Walk(s, differ, xa, xb, 1, 1, LastStatus(Some(Removed), Some(Added))) == Diverges;
  }
}

=== FILE: outcomes.dfy ===
/** The exceptions the merge tool can raise, as values. */
module Outcomes {

  datatype Error =
    /** `SMWError`: a key repeated in one record with a different value. */
    | DuplicateKey(key: string)
    /** `SMWError`: `setKey` on a key the record does not hold. */
    | UndefinedKey(key: string)
    /** `KeyError`: a symbol port holds a value absent from the signal table it is
        translated through (an id when reading a file, a name when writing one). */
    | UnknownSignal
    /** `KeyError`: a snapshot holds no symbol with an id, so `references['Sm']` is missing. */
    | NoSymbolTable
    /** `KeyError`: a reference table exists for a type with no record list (only
        possible for the signal type, whose table is built unconditionally). */
    | NoRecordList(kind: string)
    /** `ValueError`: `int('')` and `float('')` both fail on a record with no id. */
    | EmptyId(kind: string)
    /** An id that needs incrementing but is not a decimal integer (the
        floating-point path is not modelled). */
    | NonIntegerId(kind: string, id: string)
    /** `AttributeError`: a reference resolved through the `'final'` table to its
        reserved `''` entry, which holds `False` rather than a record. */
    | ReservedOwner
    /** `TypeError` / `NotImplementedError` from the max-keys strategy. */
    | MaxKeysFailure

  datatype Result<+T> = Ok(value: T) | Err(error: Error)
  {
    predicate IsFailure() { Err? }

    function PropagateFailure<U>(): Result<U>
      requires Err?
    {
      Err(error)
    }

    function Extract(): T
      requires Ok?
    {
      value
    }
  }
}

=== FILE: outfile.dfy ===
/** `outFile`: the merged record texts read back, given fresh unique ids,
    their cross references and signal ports repaired, and written out. */
module OutFiles {
  import opened Text
  import opened Outcomes
  import opened Records
  import opened RefTables
  import Snapshots

  /** Python dictionary iteration order, which the model cannot compute: the
      keys of a table in the order a loop over it visits them. */
  type KeyOrder = set<string> -> seq<string>

  /** The elements of `xs` that are in `keys`, each at its first place. */
  function FirstOccurrences(xs: seq<string>, keys: set<string>): (r: seq<string>)
    ensures forall i, j :: 0 <= i < j < |r| ==> r[i] != r[j]
    ensures forall k :: k in r <==> k in xs && k in keys
  {
    if |xs| == 0 then []
    else
      var prefix := xs[..|xs| - 1];
      var r := FirstOccurrences(prefix, keys);
      var last := xs[|xs| - 1];
      assert forall k :: k in xs <==> k in prefix || k == last;
      if last in keys && last !in r then r + [last] else r
  }

  /** The keys of a table in the order a loop visits them: each once, and
      all of them when `order` lists them all. */
  function Visit(order: KeyOrder, keys: set<string>): (r: seq<string>)
    ensures forall i, j :: 0 <= i < j < |r| ==> r[i] != r[j]
    ensures forall k :: k in r ==> k in keys
    ensures (forall k :: k in keys ==> k in order(keys)) ==> forall k :: k in keys ==> k in r
  {
    FirstOccurrences(order(keys), keys)
  }

  /** `addReferences` marks every signal with an id hidden until a symbol uses it. */
  function Hide(r: Record): (r': Record)
    ensures r' == r.(hidden := r'.hidden)
    ensures r'.hidden <==> r.hidden || (r.kind == TypeSignal && HasId(r))
  {
    if r.kind == TypeSignal && HasId(r) then r.(hidden := true) else r
  }

  /** The state after `readData`: signals hidden, the shared base table empty,
      the signal base holding the reserved signals, fresh tables for every
      type in `references`. */
  function Initial(records: seq<Record>): (s: State)
    ensures |s.records| == |records| && Valid(s)
    ensures forall i :: 0 <= i < |records| ==> s.records[i] == Hide(records[i])
    ensures s.tables.Keys == RefKinds(records)
    ensures forall t :: t in s.tables ==> FinalTable(s.tables[t].final)
  {
    State(seq(|records|, i requires 0 <= i < |records| => Hide(records[i])),
          map[], ReservedSignals, map t | t in RefKinds(records) :: FreshTables)
  }

  /** `self.references[list][source][id]`: a type without tables, a side
      without a table, or an absent id is a miss; the `A` and `B` tables fall
      back to the base table; the pre-claimed `''` of the final table is no
      record and fails when its `H` is read. */
  function Lookup(s: State, list: string, source: string, id: string): (r: Result<Option<Ref>>)
    requires Valid(s)
    ensures r.Ok? && r.value.Some? ==> ValidRef(s, r.value.value)
    ensures r.Err? <==> list in s.tables && source == "final" && id in s.tables[list].final && s.tables[list].final[id] == Taken
    ensures r.Err? ==> r.error == ReservedOwner
    ensures list !in s.tables || source !in {"", "A", "B", "final"} ==> r == Ok(None)
    ensures list in s.tables && source == "" ==>
              r == Ok(if id in Base(s, list) then Some(Base(s, list)[id]) else None)
    ensures list in s.tables && source == "final" && id !in s.tables[list].final ==> r == Ok(None)
    ensures list in s.tables && source == "final" && id in s.tables[list].final && s.tables[list].final[id].Owner? ==>
              r == Ok(Some(Obj(s.tables[list].final[id].index)))
  {
    if list !in s.tables then Ok(None)
    else
      var base := Base(s, list);
      var tb := s.tables[list];
      if source == "" then Ok(if id in base then Some(base[id]) else None)
      else if source == "A" then Ok(if id in tb.a then Some(tb.a[id]) else if id in base then Some(base[id]) else None)
      else if source == "B" then Ok(if id in tb.b then Some(tb.b[id]) else if id in base then Some(base[id]) else None)
      else if source == "final" then
        if id !in tb.final then Ok(None)
        else match tb.final[id]
          case Taken => Err(ReservedOwner)
          case Owner(i) => Ok(Some(Obj(i)))
      else Ok(None)
  }

  /** The `redict` fallback: a side lookup finds its own entry, and otherwise
      whatever the base-side lookup finds. */
  lemma LookupSideFallsBack(s: State, list: string, side: string, id: string)
    requires Valid(s) && list in s.tables && (side == "A" || side == "B")
    ensures var own := if side == "A" then s.tables[list].a else s.tables[list].b;
            Lookup(s, list, side, id) == if id in own then Ok(Some(own[id])) else Lookup(s, list, "", id)
  {
  }

  /** After one record of a type is given its id, each of its non-empty
      parse-time ids, looked up in its own file's table of that type, finds
      the record, and so does its new id in the final table: a cross
      reference written against any of the three files is redirected to it. */
  lemma ForwardOneRegisters(s: State, t: string, index: nat)
    requires t in s.tables && index < |s.records| && FinalTable(s.tables[t].final) && Valid(s)
    requires ForwardOne(s, t, index).Ok?
    ensures var s' := ForwardOne(s, t, index).value;
            var ids := s.records[index].refs;
            && Valid(s')
            && (ids.base != "" ==> Lookup(s', t, "", ids.base) == Ok(Some(Obj(index))))
            && (ids.a != "" ==> Lookup(s', t, "A", ids.a) == Ok(Some(Obj(index))))
            && (ids.b != "" ==> Lookup(s', t, "B", ids.b) == Ok(Some(Obj(index))))
            && Lookup(s', t, "final", s'.records[index].h) == Ok(Some(Obj(index)))
  {
    ForwardOneValid(s, t, index);
    var s' := ForwardOne(s, t, index).value;
    var ids := s.records[index].refs;
    if ids.base != "" {
      assert ids.base in Base(s', t) && Base(s', t)[ids.base] == Obj(index);
    }
    if ids.a != "" {
      assert ids.a in s'.tables[t].a && s'.tables[t].a[ids.a] == Obj(index);
      LookupSideFallsBack(s', t, "A", ids.a);
    }
    if ids.b != "" {
      assert ids.b in s'.tables[t].b && s'.tables[t].b[ids.b] == Obj(index);
      LookupSideFallsBack(s', t, "B", ids.b);
    }
    var id := s'.records[index].h;
    assert s'.tables[t].final[id] == Owner(index);
  }

  /** `correctObjectCrossRef(obj, list, key)`: on a hit the key's value becomes
      the target's current `H`, keeping the key's side tag; a miss, or a key
      the record does not hold, leaves the record as it was. */
  function CorrectKey(s: State, rec: Record, list: string, key: string): (r: Result<Record>)
    requires Valid(s)
    ensures r.Ok? ==> r.value == rec.(body := r.value.body)
    ensures r.Ok? ==> r.value.body.data.Keys == rec.body.data.Keys && r.value.body.order == rec.body.order
    ensures r.Ok? ==> forall k :: k in rec.body.data && k != key ==> r.value.body.data[k] == rec.body.data[k]
    ensures key !in rec.body.data ==> r == Ok(rec)
    ensures key in rec.body.data ==>
              var e := rec.body.data[key];
              match Lookup(s, list, e.source, e.value)
              case Err(_) => r.Err?
              case Ok(None) => r == Ok(rec)
              case Ok(Some(target)) => r.Ok? && r.value.body.data[key] == e.(value := TargetId(s, target))
  {
    if key !in rec.body.data then Ok(rec)
    else
      var e := rec.body.data[key];
      var found :- Lookup(s, list, e.source, e.value);
      match found
      case None => Ok(rec)
      case Some(target) => Ok(rec.(body := SetValue(rec.body, key, TargetId(s, target))))
  }

  /** A correction to make: the key to rewrite and the type it points into. */
  datatype Job = Job(list: string, key: string)

  /** The child walk from `C<n>` to just before `C<end>`, each child pointing
      into the record's own type. */
  function ChildJobs(kind: string, n: nat, end: nat): (r: seq<Job>)
    ensures forall j :: j in r ==> j.list == kind && InChildRun(j.key, n, end)
    ensures forall m :: n <= m < end ==> Job(kind, ChildKey(m)) in r
    ensures forall p :: 0 <= p < |r| ==> r[p].list == kind && ChildIndex(r[p].key) == Some(n + p)
    decreases end - n
  {
    if n >= end then []
    else
      ChildIndexOfChildKey(n);
      var rest := ChildJobs(kind, n + 1, end);
      var r := [Job(kind, ChildKey(n))] + rest;
      forall p | 1 <= p < |r|
        ensures r[p].list == kind && ChildIndex(r[p].key) == Some(n + p)
      {
        assert r[p] == rest[p - 1];
      }
      forall j | j in r
        ensures j.list == kind && InChildRun(j.key, n, end)
      {
        if j != r[0] {
          assert j in rest;
        }
      }
      forall m | n <= m < end
        ensures Job(kind, ChildKey(m)) in r
      {
        if m > n {
          assert Job(kind, ChildKey(m)) in rest;
        }
      }
      r
  }

  /** What `correctAllCrossRefs` rewrites in one record, in its order: the
      `smw.crossref` keys (`SmH`, `CmH`, `DbH`) into their types, the parent
      into the record's own type, and for a parent record its run of child
      keys `C1`, `C2`, ... up to the first absent one. */
  function Jobs(rec: Record): seq<Job>
  {
    [Job(TypeSymbol, "SmH"), Job("Cm", "CmH"), Job("Db", "DbH"), Job(rec.kind, KeyParent)]
    + (if rec.isParent then ChildJobs(rec.kind, 1, ChildRunEnd(rec.body.data.Keys, 1)) else [])
  }

  /** Keys a correction may rewrite. */
  predicate Rewritable(rec: Record, k: string)
  {
    k in {"SmH", "CmH", "DbH", KeyParent} || (rec.isParent && InChildRun(k, 1, ChildRunEnd(rec.body.data.Keys, 1)))
  }

  lemma JobsAreRewritable(rec: Record)
    ensures forall j :: j in Jobs(rec) ==> Rewritable(rec, j.key)
  {
  }

  /** No two corrections touch the same key. */
  predicate DistinctKeys(jobs: seq<Job>)
  {
    forall p, q :: 0 <= p < q < |jobs| ==> jobs[p].key != jobs[q].key
  }

  lemma JobsHaveDistinctKeys(rec: Record)
    ensures DistinctKeys(Jobs(rec))
  {
    var fixed := [Job(TypeSymbol, "SmH"), Job("Cm", "CmH"), Job("Db", "DbH"), Job(rec.kind, KeyParent)];
    var children := if rec.isParent then ChildJobs(rec.kind, 1, ChildRunEnd(rec.body.data.Keys, 1)) else [];
    assert Jobs(rec) == fixed + children;
    forall j | j in children
      ensures ChildIndex(j.key).Some?
    {
    }
    forall p, q | 0 <= p < q < |children|
      ensures children[p].key != children[q].key
    {
      assert ChildIndex(children[p].key) != ChildIndex(children[q].key);
    }
    assert ChildIndex("SmH").None? && ChildIndex("CmH").None? && ChildIndex("DbH").None? && ChildIndex(KeyParent).None? by {
      assert "mH"[0] == 'm' && !IsDigit('m');
      assert "SmH"[0] != 'C' && "DbH"[0] != 'C' && KeyParent[0] != 'C';
    }
    forall p, q | 0 <= p < q < |Jobs(rec)|
      ensures Jobs(rec)[p].key != Jobs(rec)[q].key
    {
      if q >= 4 {
        assert Jobs(rec)[q] == children[q - 4];
        assert Jobs(rec)[q] in children;
        if p >= 4 {
          assert Jobs(rec)[p] == children[p - 4];
        }
      }
    }
  }

  /** Whether a correction raises, and what it writes into its key, depends
      only on the entry under that key. */
  lemma CorrectKeyReadsOwnEntry(s: State, rec1: Record, rec2: Record, list: string, key: string)
    requires Valid(s)
    requires key in rec1.body.data <==> key in rec2.body.data
    requires key in rec1.body.data ==> rec1.body.data[key] == rec2.body.data[key]
    ensures CorrectKey(s, rec1, list, key).Err? <==> CorrectKey(s, rec2, list, key).Err?
    ensures CorrectKey(s, rec1, list, key).Ok? && key in rec1.body.data ==>
              CorrectKey(s, rec1, list, key).value.body.data[key] == CorrectKey(s, rec2, list, key).value.body.data[key]
  {
  }

  /** The corrections applied one after another. */
  function CorrectKeys(s: State, rec: Record, jobs: seq<Job>): (r: Result<Record>)
    requires Valid(s)
    ensures r.Ok? ==> r.value == rec.(body := r.value.body)
    ensures r.Ok? ==> r.value.body.data.Keys == rec.body.data.Keys && r.value.body.order == rec.body.order
    ensures r.Ok? ==> forall k :: k in rec.body.data && (forall j :: j in jobs ==> j.key != k) ==>
              r.value.body.data[k] == rec.body.data[k]
    ensures r.Ok? ==> forall k :: k in rec.body.data ==> r.value.body.data[k].source == rec.body.data[k].source
    ensures r.Err? ==> r.error == ReservedOwner
    decreases |jobs|
  {
    if |jobs| == 0 then Ok(rec)
    else
      var rec1 :- CorrectKey(s, rec, jobs[0].list, jobs[0].key);
      assert forall j :: j in jobs[1..] ==> j in jobs;
      CorrectKeys(s, rec1, jobs[1..])
  }

  /** Applying corrections to distinct keys one after another is applying
      each to the original record: it raises exactly when one of them does,
      and otherwise each key ends as its own correction leaves it. */
  lemma {:induction false} CorrectKeysIndependent(s: State, rec: Record, jobs: seq<Job>)
    requires Valid(s) && DistinctKeys(jobs)
    ensures CorrectKeys(s, rec, jobs).Err? <==> exists m :: 0 <= m < |jobs| && CorrectKey(s, rec, jobs[m].list, jobs[m].key).Err?
    ensures CorrectKeys(s, rec, jobs).Ok? ==> forall m :: 0 <= m < |jobs| && jobs[m].key in rec.body.data ==>
              CorrectKey(s, rec, jobs[m].list, jobs[m].key).Ok?
              && CorrectKeys(s, rec, jobs).value.body.data[jobs[m].key] == CorrectKey(s, rec, jobs[m].list, jobs[m].key).value.body.data[jobs[m].key]
    decreases |jobs|
  {
    if |jobs| > 0 {
      var first := CorrectKey(s, rec, jobs[0].list, jobs[0].key);
      if first.Ok? {
        var rec1 := first.value;
        var rest := jobs[1..];
        DistinctKeysTail(jobs);
        CorrectKeysIndependent(s, rec1, rest);
        var all := CorrectKeys(s, rec, jobs);
        assert all == CorrectKeys(s, rec1, rest);
        LaterJobsSeeOriginal(s, rec, jobs);
        if all.Err? {
          var m' :| 0 <= m' < |rest| && CorrectKey(s, rec1, rest[m'].list, rest[m'].key).Err?;
          assert rest[m'] == jobs[m' + 1];
        } else {
          forall m | 0 <= m < |jobs|
            ensures CorrectKey(s, rec, jobs[m].list, jobs[m].key).Ok?
          {
            if m > 0 {
              assert rest[m - 1] == jobs[m];
            }
          }
          forall m | 0 <= m < |jobs| && jobs[m].key in rec.body.data
            ensures all.value.body.data[jobs[m].key] == CorrectKey(s, rec, jobs[m].list, jobs[m].key).value.body.data[jobs[m].key]
          {
            if m > 0 {
              assert rest[m - 1] == jobs[m];
            } else {
              assert forall j :: j in rest ==> j.key != jobs[0].key;
            }
          }
        }
      }
    }
  }

  lemma DistinctKeysTail(jobs: seq<Job>)
    requires |jobs| > 0 && DistinctKeys(jobs)
    ensures DistinctKeys(jobs[1..])
    ensures forall j :: j in jobs[1..] ==> j.key != jobs[0].key
  {
    var rest := jobs[1..];
    forall p, q | 0 <= p < q < |rest|
      ensures rest[p].key != rest[q].key
    {
      assert rest[p] == jobs[p + 1] && rest[q] == jobs[q + 1];
    }
    forall j | j in rest
      ensures j.key != jobs[0].key
    {
      var q :| 0 <= q < |rest| && rest[q] == j;
      assert jobs[q + 1] == j;
    }
  }

  /** After the first correction, each later one acts as on the original record. */
  lemma LaterJobsSeeOriginal(s: State, rec: Record, jobs: seq<Job>)
    requires Valid(s) && |jobs| > 0 && DistinctKeys(jobs)
    requires CorrectKey(s, rec, jobs[0].list, jobs[0].key).Ok?
    ensures var rec1 := CorrectKey(s, rec, jobs[0].list, jobs[0].key).value;
            forall m :: 1 <= m < |jobs| ==>
              && (CorrectKey(s, rec1, jobs[m].list, jobs[m].key).Err? <==> CorrectKey(s, rec, jobs[m].list, jobs[m].key).Err?)
              && (CorrectKey(s, rec1, jobs[m].list, jobs[m].key).Ok? && jobs[m].key in rec.body.data ==>
                    CorrectKey(s, rec1, jobs[m].list, jobs[m].key).value.body.data[jobs[m].key]
                    == CorrectKey(s, rec, jobs[m].list, jobs[m].key).value.body.data[jobs[m].key])
  {
    var rec1 := CorrectKey(s, rec, jobs[0].list, jobs[0].key).value;
    forall m | 1 <= m < |jobs|
      ensures CorrectKey(s, rec1, jobs[m].list, jobs[m].key).Err? <==> CorrectKey(s, rec, jobs[m].list, jobs[m].key).Err?
      ensures CorrectKey(s, rec1, jobs[m].list, jobs[m].key).Ok? && jobs[m].key in rec.body.data ==>
                CorrectKey(s, rec1, jobs[m].list, jobs[m].key).value.body.data[jobs[m].key]
                == CorrectKey(s, rec, jobs[m].list, jobs[m].key).value.body.data[jobs[m].key]
    {
      assert jobs[m].key != jobs[0].key;
      CorrectKeyReadsOwnEntry(s, rec1, rec, jobs[m].list, jobs[m].key);
    }
  }

  /** One record of `correctAllCrossRefs`: each of its `SmH`, `CmH`, `DbH`,
      `PrH` and child keys is corrected against the original record, it
      raises exactly when one of those corrections does, and only the values
      of those keys change, each keeping its side tag. */
  function CorrectRecord(s: State, rec: Record): (r: Result<Record>)
    requires Valid(s)
    ensures r.Ok? ==> r.value == rec.(body := r.value.body)
    ensures r.Ok? ==> r.value.body.data.Keys == rec.body.data.Keys && r.value.body.order == rec.body.order
    ensures r.Ok? ==> forall k :: k in rec.body.data && !Rewritable(rec, k) ==> r.value.body.data[k] == rec.body.data[k]
    ensures r.Ok? ==> forall k :: k in rec.body.data ==> r.value.body.data[k].source == rec.body.data[k].source
    ensures r.Err? ==> r.error == ReservedOwner
    ensures r.Err? <==> exists j :: j in Jobs(rec) && CorrectKey(s, rec, j.list, j.key).Err?
    ensures r.Ok? ==> forall j :: j in Jobs(rec) && j.key in rec.body.data ==>
              CorrectKey(s, rec, j.list, j.key).Ok? && r.value.body.data[j.key] == CorrectKey(s, rec, j.list, j.key).value.body.data[j.key]
  {
    JobsAreRewritable(rec);
    JobsHaveDistinctKeys(rec);
    CorrectKeysIndependent(s, rec, Jobs(rec));
    CorrectKeys(s, rec, Jobs(rec))
  }

  /** `correctAllCrossRefs`: every record corrected against the tables. A
      correction only rewrites values and reads the tables and the targets'
      `H`, which no correction changes, so the records can be taken in any order. */
  function CorrectAll(s: State): (r: Result<State>)
    requires Valid(s)
    ensures r.Ok? ==> |r.value.records| == |s.records| && r.value == s.(records := r.value.records)
    ensures r.Ok? ==> forall i :: 0 <= i < |s.records| ==> Ok(r.value.records[i]) == CorrectRecord(s, s.records[i])
    ensures r.Err? <==> exists i :: 0 <= i < |s.records| && CorrectRecord(s, s.records[i]).Err?
  {
    if exists i :: 0 <= i < |s.records| && CorrectRecord(s, s.records[i]).Err? then Err(ReservedOwner)
    else Ok(s.(records := seq(|s.records|, i requires 0 <= i < |s.records| => CorrectRecord(s, s.records[i]).value)))
  }

  /** The name a table entry is filed under in the back table. */
  function NameOf(s: State, r: Ref): string
    requires ValidRef(s, r)
  {
    match r
    case Reserved(_, name) => name
    case Obj(i) => s.records[i].name
  }

  /** A back table whose every entry is filed under its own name. */
  ghost predicate BackTable(s: State, back: map<string, Ref>)
  {
    forall n :: n in back ==> ValidRef(s, back[n]) && NameOf(s, back[n]) == n
  }

  /** The names of the entries a loop over `keys` visits. */
  ghost function Names(s: State, table: map<string, Ref>, keys: seq<string>): set<string>
    requires forall k :: k in table ==> ValidRef(s, table[k])
  {
    set k | k in keys && k in table :: NameOf(s, table[k])
  }

  /** `buildBackReference(forward, back)`: name to entry for every key visited,
      a later entry with the same name replacing an earlier one. */
  function AddBack(s: State, table: map<string, Ref>, keys: seq<string>, back: map<string, Ref>): (r: map<string, Ref>)
    requires forall k :: k in table ==> ValidRef(s, table[k])
    requires BackTable(s, back)
    ensures BackTable(s, r)
    ensures r.Keys == back.Keys + Names(s, table, keys)
    ensures forall n :: n in Names(s, table, keys) ==> r[n] in table.Values
    ensures forall n :: n in back && n !in Names(s, table, keys) ==> r[n] == back[n]
    decreases |keys|
  {
    if |keys| == 0 then back
    else
      var k := keys[0];
      var back' := if k in table then back[NameOf(s, table[k]) := table[k]] else back;
      var r := AddBack(s, table, keys[1..], back');
      assert forall x :: x in keys <==> x == k || x in keys[1..];
      assert Names(s, table, keys) == Names(s, table, keys[1..]) + (if k in table then {NameOf(s, table[k])} else {});
      r
  }

  /** The names a loop over a table files. */
  ghost function Filed(s: State, table: map<string, Ref>, order: KeyOrder): set<string>
    requires forall k :: k in table ==> ValidRef(s, table[k])
  {
    Names(s, table, Visit(order, table.Keys))
  }

  /** `signalBackTable`: built from the signal base table, then the `A` table,
      then the `B` table, so that for a name several of them file, the `B`
      entry wins over the `A` entry, which wins over the base entry. */
  function SignalBack(s: State, order: KeyOrder): (back: map<string, Ref>)
    requires Valid(s) && TypeSignal in s.tables
    ensures BackTable(s, back)
    ensures back.Keys == Filed(s, s.signals, order) + Filed(s, s.tables[TypeSignal].a, order) + Filed(s, s.tables[TypeSignal].b, order)
    ensures forall n :: n in Filed(s, s.tables[TypeSignal].b, order) ==> back[n] in s.tables[TypeSignal].b.Values
    ensures forall n :: n in Filed(s, s.tables[TypeSignal].a, order) && n !in Filed(s, s.tables[TypeSignal].b, order) ==>
              back[n] in s.tables[TypeSignal].a.Values
    ensures forall n :: n in back && n !in Filed(s, s.tables[TypeSignal].a, order) && n !in Filed(s, s.tables[TypeSignal].b, order) ==>
              back[n] in s.signals.Values
  {
    var tb := s.tables[TypeSignal];
    var b0 := AddBack(s, s.signals, Visit(order, s.signals.Keys), map[]);
    var b1 := AddBack(s, tb.a, Visit(order, tb.a.Keys), b0);
    AddBack(s, tb.b, Visit(order, tb.b.Keys), b1)
  }

  /** With a dictionary order that visits every key, every entry of each of
      the three signal tables has its name in the back table. */
  lemma SignalBackComplete(s: State, order: KeyOrder, k: string)
    requires Valid(s) && TypeSignal in s.tables && Complete(order)
    ensures k in s.signals ==> NameOf(s, s.signals[k]) in SignalBack(s, order)
    ensures k in s.tables[TypeSignal].a ==> NameOf(s, s.tables[TypeSignal].a[k]) in SignalBack(s, order)
    ensures k in s.tables[TypeSignal].b ==> NameOf(s, s.tables[TypeSignal].b[k]) in SignalBack(s, order)
  {
    var tb := s.tables[TypeSignal];
    if k in s.signals {
      assert k in Visit(order, s.signals.Keys);
    }
    if k in tb.a {
      assert k in Visit(order, tb.a.Keys);
    }
    if k in tb.b {
      assert k in Visit(order, tb.b.Keys);
    }
  }

  /** The indices of the signals some symbol port names through the back table. */
  function UsedSignals(s: State, back: map<string, Ref>): set<nat>
  {
    set j, k | 0 <= j < |s.records| && k in s.records[j].body.data && s.records[j].kind == TypeSymbol && IsPortKey(k)
               && s.records[j].body.data[k].value in back && back[s.records[j].body.data[k].value].Obj?
             :: back[s.records[j].body.data[k].value].index
  }

  /** `diffObject.fixSignals(signalBackTable)` on every symbol: each port's
      signal name becomes that signal's current `H`, and each signal so used
      is shown again; a name the table lacks raises. */
  function FixPorts(s: State, back: map<string, Ref>): (r: Result<State>)
    requires Valid(s) && BackTable(s, back)
    ensures r.Ok? ==> |r.value.records| == |s.records| && r.value == s.(records := r.value.records)
    ensures r.Ok? ==> forall i :: 0 <= i < |s.records| ==>
              r.value.records[i].kind == s.records[i].kind && r.value.records[i].h == s.records[i].h
    ensures r.Ok? ==> forall i :: 0 <= i < |s.records| ==>
              (r.value.records[i].hidden <==> s.records[i].hidden && i !in UsedSignals(s, back))
    ensures r.Err? <==> exists i :: 0 <= i < |s.records| && FixSignals(s.records[i], IdTable(s, back)).Err?
    ensures r.Ok? ==> forall i :: 0 <= i < |s.records| ==>
              Ok(r.value.records[i].(hidden := s.records[i].hidden)) == FixSignals(s.records[i], IdTable(s, back))
  {
    var table := IdTable(s, back);
    var used := UsedSignals(s, back);
    if exists i :: 0 <= i < |s.records| && FixSignals(s.records[i], table).Err? then Err(UnknownSignal)
    else
      Ok(s.(records := seq(|s.records|, i requires 0 <= i < |s.records| =>
        var fixed := FixSignals(s.records[i], table).value;
        fixed.(hidden := fixed.hidden && i !in used))))
  }

  /** Signal name to current `H`. */
  function IdTable(s: State, back: map<string, Ref>): map<string, string>
    requires forall n :: n in back ==> ValidRef(s, back[n])
  {
    map n | n in back :: TargetId(s, back[n])
  }

  /** Replacing records, keeping their number, keeps the tables valid. */
  lemma SameLengthValid(s: State, records: seq<Record>)
    requires Valid(s) && |records| == |s.records|
    ensures Valid(s.(records := records))
  {
    var s' := s.(records := records);
    assert forall x :: ValidRef(s, x) ==> ValidRef(s', x);
    assert forall c :: ValidClaim(s, c) ==> ValidClaim(s', c);
  }

  /** A record `__str__` writes: not hidden, and rendering to some text. */
  predicate Printed(r: Record)
  {
    !r.hidden && Render(r.body) != ""
  }

  /** The indices of the printed records, in order. */
  function PrintedAt(records: seq<Record>): (ps: seq<nat>)
    ensures forall i :: i in ps <==> 0 <= i < |records| && Printed(records[i])
    ensures forall p, q :: 0 <= p < q < |ps| ==> ps[p] < ps[q]
    ensures forall p :: 0 <= p < |ps| ==> ps[p] < |records|
  {
    if |records| == 0 then []
    else
      var n := |records| - 1;
      var ps := PrintedAt(records[..n]);
      assert forall k :: 0 <= k < n ==> records[..n][k] == records[k];
      if Printed(records[n]) then ps + [n] else ps
  }

  /** The texts `__str__` writes for the records of one list: the text of
      every shown record with a non-empty rendering, once each, in order. */
  function Shown(records: seq<Record>): (r: seq<string>)
    ensures |r| == |PrintedAt(records)|
    ensures forall m :: 0 <= m < |r| ==> r[m] == Render(records[PrintedAt(records)[m]].body)
  {
    var ps := PrintedAt(records);
    seq(|ps|, m requires 0 <= m < |ps| => Render(records[ps[m]].body))
  }

  /** The shown texts are the texts of printed records, and every printed record's text is among them. */
  lemma ShownTexts(records: seq<Record>)
    ensures forall l :: l in Shown(records) ==> l != "" && exists k :: 0 <= k < |records| && !records[k].hidden && l == Render(records[k].body)
    ensures forall k :: 0 <= k < |records| && Printed(records[k]) ==> Render(records[k].body) in Shown(records)
  {
    var ps := PrintedAt(records);
    var r := Shown(records);
    forall l | l in r
      ensures l != "" && exists k :: 0 <= k < |records| && !records[k].hidden && l == Render(records[k].body)
    {
      var m :| 0 <= m < |r| && r[m] == l;
      var k := ps[m];
      assert k in ps;
      assert Printed(records[k]) && l == Render(records[k].body);
    }
    forall k | 0 <= k < |records| && Printed(records[k])
      ensures Render(records[k].body) in r
    {
      assert k in ps;
      var m :| 0 <= m < |ps| && ps[m] == k;
      assert r[m] == Render(records[k].body);
    }
  }

  /** `__str__` before joining: the lists in type order, each giving the
      texts of its printed records as above. */
  function ShownLines(records: seq<Record>, kinds: seq<string>): (r: seq<string>)
    ensures forall l :: l in r ==> l != "" && exists k :: 0 <= k < |records| && !records[k].hidden && l == Render(records[k].body)
    ensures forall k :: 0 <= k < |records| && !records[k].hidden && Render(records[k].body) != "" && records[k].kind in kinds ==>
              Render(records[k].body) in r
  {
    if |kinds| == 0 then []
    else
      var own := Snapshots.OfKind(records, kinds[0]);
      var rest := ShownLines(records, kinds[1..]);
      ShownTexts(own);
      forall l | l in Shown(own)
        ensures exists k :: 0 <= k < |records| && !records[k].hidden && l == Render(records[k].body)
      {
        var k :| 0 <= k < |own| && !own[k].hidden && l == Render(own[k].body);
        assert own[k] in own;
      }
      Shown(own) + rest
  }

  /** The lines of a type order in two parts are the lines of each part, and
      one type gives the printed records of that type in file order: so
      `__str__` writes the types in order and each type's records in order. */
  lemma {:induction false} ShownLinesAppend(records: seq<Record>, k1: seq<string>, k2: seq<string>)
    ensures ShownLines(records, k1 + k2) == ShownLines(records, k1) + ShownLines(records, k2)
    ensures |k1| == 1 ==> ShownLines(records, k1) == Shown(Snapshots.OfKind(records, k1[0]))
  {
    if |k1| > 0 {
      assert (k1 + k2)[0] == k1[0];
      assert (k1 + k2)[1..] == k1[1..] + k2;
      ShownLinesAppend(records, k1[1..], k2);
      if |k1| == 1 {
        assert k1[1..] == [];
      }
    } else {
      assert k1 + k2 == k2;
    }
  }

  /** The forward pass of `outFile`: every reference type, in dictionary
      order, gets its unique ids and lookup tables. */
  function Forwarded(records: seq<Record>, order: KeyOrder): (r: Result<State>)
    ensures r == ForwardAll(Initial(records), Visit(order, RefKinds(records)))
    ensures r.Ok? ==> Valid(r.value) && TypeSignal in r.value.tables
    ensures r.Ok? ==> |r.value.records| == |records| && r.value.tables.Keys == RefKinds(records)
  {
    var s0 := Initial(records);
    var r := ForwardAll(s0, Visit(order, RefKinds(records)));
    if r.Ok? then
      ForwardAllValid(s0, Visit(order, RefKinds(records)));
      r
    else r
  }

  /** `buildBackReference` then `fixSignals` on every record. */
  function PortsFixed(s: State, order: KeyOrder): (r: Result<State>)
    requires Valid(s) && TypeSignal in s.tables
    ensures r == FixPorts(s, SignalBack(s, order))
    ensures r.Ok? ==> Valid(r.value)
  {
    var r := FixPorts(s, SignalBack(s, order));
    if r.Ok? then
      SameLengthValid(s, r.value.records);
      r
    else r
  }

  /** Everything `outFile(result)` does up to `__str__`: read the merged
      texts as records, assign unique ids type by type, build the signal back
      table, re-encode the symbol ports, and correct the cross references.
      The first stage that raises ends the repair. */
  function Repair(lines: seq<string>, order: KeyOrder): (r: Result<State>)
    ensures r.Ok? ==> Valid(r.value) && |r.value.records| == |Snapshots.NonEmpty(lines)|
    ensures r.Ok? ==> Snapshots.ParseAll(Snapshots.NonEmpty(lines), Diff).Ok?
    ensures r.Ok? ==> r.value.tables.Keys == RefKinds(Snapshots.ParseAll(Snapshots.NonEmpty(lines), Diff).value)
    ensures var parsed := Snapshots.ParseAll(Snapshots.NonEmpty(lines), Diff);
            r.Ok? <==>
              && parsed.Ok?
              && Forwarded(parsed.value, order).Ok?
              && PortsFixed(Forwarded(parsed.value, order).value, order).Ok?
              && CorrectAll(PortsFixed(Forwarded(parsed.value, order).value, order).value).Ok?
    ensures var parsed := Snapshots.ParseAll(Snapshots.NonEmpty(lines), Diff);
            r.Ok? ==> r.value == CorrectAll(PortsFixed(Forwarded(parsed.value, order).value, order).value).value
    ensures var parsed := Snapshots.ParseAll(Snapshots.NonEmpty(lines), Diff);
            r.Err? ==>
              r.error == (if parsed.Err? then parsed.error
                          else if Forwarded(parsed.value, order).Err? then Forwarded(parsed.value, order).error
                          else if PortsFixed(Forwarded(parsed.value, order).value, order).Err? then PortsFixed(Forwarded(parsed.value, order).value, order).error
                          else CorrectAll(PortsFixed(Forwarded(parsed.value, order).value, order).value).error)
  {
    var records :- Snapshots.ParseAll(Snapshots.NonEmpty(lines), Diff);
    var s1 :- Forwarded(records, order);
    var s2 :- PortsFixed(s1, order);
    var s3 :- CorrectAll(s2);
    SameLengthValid(s2, s3.records);
    Ok(s3)
  }

  /** A dictionary order that visits every key. */
  ghost predicate Complete(order: KeyOrder)
  {
    forall keys: set<string>, k :: k in keys ==> k in order(keys)
  }

  /** The point of `outFile`: after the repair, no two records of a type with
      tables share an id. */
  lemma RepairGivesUniqueIds(lines: seq<string>, order: KeyOrder, i: nat, j: nat)
    ensures Complete(order) && Repair(lines, order).Ok? ==>
              var s := Repair(lines, order).value;
              i < j < |s.records| && s.records[i].kind == s.records[j].kind && s.records[i].kind in s.tables ==>
                s.records[i].h != s.records[j].h
  {
    if Complete(order) && Repair(lines, order).Ok? {
      var records := Snapshots.ParseAll(Snapshots.NonEmpty(lines), Diff).value;
      var s0 := Initial(records);
      var kinds := Visit(order, RefKinds(records));
      var s1 := Forwarded(records, order).value;
      var s2 := PortsFixed(s1, order).value;
      var s3 := CorrectAll(s2).value;
      assert s3 == Repair(lines, order).value;
      if i < j < |s3.records| && s3.records[i].kind == s3.records[j].kind && s3.records[i].kind in s3.tables {
        var t := s3.records[i].kind;
        assert Ok(s3.records[i]) == CorrectRecord(s2, s2.records[i]);
        assert Ok(s3.records[j]) == CorrectRecord(s2, s2.records[j]);
        assert t in kinds;
        ForwardAllOwns(s0, kinds);
        var owned := Snapshots.Positions(s0.records, t);
        assert i in owned && j in owned;
        OwnedIdsDistinct(s1, t, owned, i, j);
      }
    }
  }

  /** `str(outFile(result))`, in the type order the records first appear in. */
  function OutFile(lines: seq<string>, order: KeyOrder): (r: Result<string>)
    ensures r.Ok? <==> Repair(lines, order).Ok?
    ensures r.Err? ==> r.error == Repair(lines, order).error
    ensures r.Ok? ==> var records := Repair(lines, order).value.records;
              r.value == Join(ShownLines(records, Snapshots.KindOrder(records)), CRLF)
  {
    var s :- Repair(lines, order);
    Ok(Join(ShownLines(s.records, Snapshots.KindOrder(s.records)), CRLF))
  }
}

=== FILE: record.dfy ===
/** One SMW object: an ordered bundle of `key=value` lines between `[` and `]`.
    A record keeps its entries in a map from slot to entry (`_data`) and the
    order in which keys were first seen (`_dataOrder`). */
module Records {
  import opened Text
  import opened Outcomes

  const KeyType := "ObjTp"
  const KeyName := "Nm"
  const KeyComment1 := "Cmn1"
  const KeyParent := "PrH"
  /** The tool's own child key: `C<n>` lines are rendered as `C0H` for diffing. */
  const KeyChild := "C0H"
  const KeyRef := "H"
  const KeyRefA := "H-A"
  const KeyRefB := "H-B"
  const KeySymType := "SmC"
  const KeyChildCount := "mC"

  const TypeSymbol := "Sm"
  const TypeSignal := "Sg"
  const TypeDevice := "Dv"

  /** A `_key`: the key without its side suffix, the side (`''` when none) and the value. */
  datatype Entry = Entry(key: string, source: string, value: string)
  {
    /** `render()`: the side suffix is not written back. */
    function Render(): string
    {
      key + "=" + value
    }
  }

  /** `_data`, `_dataOrder` and the number of `C0H` lines seen so far. */
  datatype Body = Body(data: map<string, Entry>, order: seq<string>, children: nat)

  const EmptyBody := Body(map[], [], 0)

  /** The ids a record had when it was parsed (`refs`): `H`, `H-A`, `H-B`. */
  datatype Ids = Ids(base: string, a: string, b: string)

  /** `smwObject` reads its text; `diffObject` reads merge output and differs
      in `convertChildRefs` and `fixSignals`. */
  datatype Flavor = Plain | Diff

  datatype Record = Record(
    body: Body,
    name: string,
    kind: string,
    smc: string,
    parent: int,
    h: string,
    refs: Ids,
    hidden: bool,
    isParent: bool)

  function CountChar(s: string, c: char): nat
  {
    if |s| == 0 then 0 else (if s[0] == c then 1 else 0) + CountChar(s[1..], c)
  }

  lemma {:induction false} CountCharPositive(s: string, c: char)
    ensures CountChar(s, c) > 0 <==> c in s
  {
    if |s| > 0 {
      CountCharPositive(s[1..], c);
      assert s == [s[0]] + s[1..];
    }
  }

  lemma {:induction false} CountCharAppend(a: string, b: string, c: char)
    ensures CountChar(a + b, c) == CountChar(a, c) + CountChar(b, c)
  {
    if |a| > 0 {
      assert (a + b)[1..] == a[1..] + b;
      CountCharAppend(a[1..], b, c);
    } else {
      assert a + b == b;
    }
  }

  /** Position of the first `c` in `s`. */
  function FindChar(s: string, c: char): (r: Option<nat>)
    ensures r.None? <==> c !in s
    ensures r.Some? ==> r.value < |s| && s[r.value] == c && c !in s[..r.value]
  {
    if |s| == 0 then None
    else if s[0] == c then Some(0)
    else match FindChar(s[1..], c)
      case None => None
      case Some(i) =>
        assert s[..i + 1] == [s[0]] + s[1..][..i];
        Some(i + 1)
  }

  lemma DashSplit(s: string, i: nat)
    requires CountChar(s, '-') == 1
    requires i < |s| && s[i] == '-' && '-' !in s[..i]
    ensures s[..i] + "-" + s[i + 1..] == s
    ensures CountChar(s[..i], '-') == 0 && CountChar(s[i + 1..], '-') == 0
  {
    assert s == s[..i] + "-" + s[i + 1..];
    assert s == s[..i] + ("-" + s[i + 1..]);
    CountCharAppend(s[..i], "-" + s[i + 1..], '-');
    CountCharAppend("-", s[i + 1..], '-');
    assert CountChar("-", '-') == 1;
    CountCharPositive(s[..i], '-');
  }

  /** `_key(key, value)`: `key.split('-')` giving exactly two parts makes them
      the key and the source; otherwise the whole key is kept with source `''`. */
  function MakeEntry(rawKey: string, value: string): (e: Entry)
    ensures e.value == value
    ensures CountChar(rawKey, '-') == 1 ==> e.key + "-" + e.source == rawKey
    ensures CountChar(rawKey, '-') == 1 ==> CountChar(e.key, '-') == 0 && CountChar(e.source, '-') == 0
    ensures CountChar(rawKey, '-') != 1 ==> e.key == rawKey && e.source == ""
  {
    if CountChar(rawKey, '-') == 1 then
      CountCharPositive(rawKey, '-');
      var i := FindChar(rawKey, '-').value;
      DashSplit(rawKey, i);
      Entry(rawKey[..i], rawKey[i + 1..], value)
    else Entry(rawKey, "", value)
  }

  /** The stored key of an entry once `C0H` is renumbered to the next child. */
  function Renumbered(e: Entry, children: nat): Entry
  {
    if e.key == KeyChild then e.(key := "C" + NatToString(children + 1)) else e
  }

  /** The `_data` slot of an entry: the raw key for the self id (`H`, `H-A`,
      `H-B`), the stripped key otherwise. */
  function Slot(rawKey: string, e: Entry): string
  {
    if e.key == KeyRef then rawKey else e.key
  }

  /** `newKey(key, value)`: store an entry, failing when its slot already holds a
      different value. */
  function NewKey(b: Body, rawKey: string, value: string): (r: Result<Body>)
    ensures var e := Renumbered(MakeEntry(rawKey, value), b.children);
            var slot := Slot(rawKey, e);
            && (r.Err? <==> slot in b.data && b.data[slot].value != value)
            && (r.Ok? ==>
                  && r.value.data == b.data[slot := e]
                  && r.value.order == (if e.key in b.order then b.order else b.order + [e.key])
                  && r.value.children == (if MakeEntry(rawKey, value).key == KeyChild then b.children + 1 else b.children))
  {
    var e0 := MakeEntry(rawKey, value);
    var children := if e0.key == KeyChild then b.children + 1 else b.children;
    var e := Renumbered(e0, b.children);
    var slot := if e.key == KeyRef then rawKey else e.key;
    if slot in b.data && b.data[slot].value != value then Err(DuplicateKey(rawKey))
    else Ok(Body(b.data[slot := e], if e.key in b.order then b.order else b.order + [e.key], children))
  }

  /** `_line.split('=', 1)`: the key before the first `=` and the value after it. */
  function SplitLine(line: string): (r: Option<(string, string)>)
    ensures r.None? <==> '=' !in line
    ensures r.Some? ==> line == r.value.0 + "=" + r.value.1 && '=' !in r.value.0
  {
    match FindChar(line, '=')
    case None => None
    case Some(i) =>
      assert line == line[..i] + "=" + line[i + 1..];
      Some((line[..i], line[i + 1..]))
  }

  /** Feeds each line to `newKey`, skipping lines without `=`; the first
      conflicting key aborts the parse. */
  function ParseLines(b: Body, lines: seq<string>): Result<Body>
    decreases |lines|
  {
    if |lines| == 0 then Ok(b)
    else match SplitLine(lines[0])
      case None => ParseLines(b, lines[1..])
      case Some(kv) =>
        match NewKey(b, kv.0, kv.1)
        case Err(e) => Err(e)
        case Ok(b') => ParseLines(b', lines[1..])
  }

  /** The lines of `lines` that contain `=`. */
  function KeyValueLines(lines: seq<string>): seq<string>
  {
    if |lines| == 0 then []
    else if '=' in lines[0] then [lines[0]] + KeyValueLines(lines[1..])
    else KeyValueLines(lines[1..])
  }

  /** Lines without `=` are skipped: they do not change the parse. */
  lemma {:induction false} ParseSkipsLinesWithoutEquals(b: Body, lines: seq<string>)
    ensures ParseLines(b, lines) == ParseLines(b, KeyValueLines(lines))
    decreases |lines|
  {
    if |lines| > 0 {
      if '=' in lines[0] {
        var kv := SplitLine(lines[0]).value;
        assert KeyValueLines(lines)[1..] == KeyValueLines(lines[1..]);
        match NewKey(b, kv.0, kv.1)
        case Err(e) =>
        case Ok(b') => ParseSkipsLinesWithoutEquals(b', lines[1..]);
      } else {
        ParseSkipsLinesWithoutEquals(b, lines[1..]);
      }
    }
  }

  /** The value stored under a slot, or `''` (`getKey`). */
  function GetKey(b: Body, key: string): (v: string)
    ensures key in b.data ==> v == b.data[key].value
    ensures key !in b.data ==> v == ""
  {
    if key in b.data then b.data[key].value else ""
  }

  /** The side tag of the entry in a slot (`getKeySource`), `None` where Python raises `KeyError`. */
  function GetKeySource(b: Body, key: string): (r: Option<string>)
    ensures r.Some? <==> key in b.data
    ensures r.Some? ==> r.value == b.data[key].source
  {
    if key in b.data then Some(b.data[key].source) else None
  }

  /** Replace the value of a present slot, keeping its key and side tag. */
  function SetValue(b: Body, key: string, value: string): (r: Body)
    requires key in b.data
    ensures r.data.Keys == b.data.Keys && r.order == b.order && r.children == b.children
    ensures r.data[key] == b.data[key].(value := value)
    ensures forall k :: k in b.data && k != key ==> r.data[k] == b.data[k]
  {
    b.(data := b.data[key := b.data[key].(value := value)])
  }

  /** `setKey`: only a slot the record already holds can be set. */
  function SetKey(b: Body, key: string, value: string): (r: Result<Body>)
    ensures r.Ok? <==> key in b.data
    ensures r.Ok? ==> GetKey(r.value, key) == value && r.value.order == b.order
    ensures r.Ok? ==> forall k :: k != key ==> GetKey(r.value, k) == GetKey(b, k)
  {
    if key in b.data then Ok(SetValue(b, key, value)) else Err(UndefinedKey(key))
  }

  /** `delKey`: removes the slot if present; `_dataOrder` keeps the key name. */
  function DelKey(b: Body, key: string): (r: Body)
    ensures key !in r.data && r.order == b.order
    ensures forall k :: k != key ==> GetKey(r, k) == GetKey(b, k)
  {
    b.(data := b.data - {key})
  }

  /** The rendered `key=value` lines: one per key of `_dataOrder` whose slot is present. */
  function RenderedLines(data: map<string, Entry>, order: seq<string>): seq<string>
  {
    if |order| == 0 then []
    else (if order[0] in data then [data[order[0]].Render()] else []) + RenderedLines(data, order[1..])
  }

  /** `__str__`: `[`, the rendered lines, `]`, CRLF-joined, or `''` when no line renders. */
  function Render(b: Body): (s: string)
    ensures s == "" <==> |RenderedLines(b.data, b.order)| == 0
  {
    var lines := RenderedLines(b.data, b.order);
    if |lines| == 0 then "" else Join(["["] + lines + ["]"], CRLF)
  }

  /** Splitting a rendered record on CRLF gives back its framing and its lines. */
  lemma RenderSplits(b: Body)
    requires |RenderedLines(b.data, b.order)| > 0
    requires forall l :: l in RenderedLines(b.data, b.order) ==> NoCRLF(l)
    ensures Split(Render(b), CRLF) == ["["] + RenderedLines(b.data, b.order) + ["]"]
  {
    var all := ["["] + RenderedLines(b.data, b.order) + ["]"];
    assert NoCRLF("[") && NoCRLF("]") by {
      assert forall k: nat :: !OccursAt("[", CRLF, k);
      assert forall k: nat :: !OccursAt("]", CRLF, k);
    }
    SplitJoinLines(all);
  }

  /** An `=`-free key whose slot `H`, `H-A` and `H-B` would be told apart. */
  lemma SelfIdSlotsAreDistinct(v: string)
    ensures Slot(KeyRef, Renumbered(MakeEntry(KeyRef, v), 0)) == "H"
    ensures Slot(KeyRefA, Renumbered(MakeEntry(KeyRefA, v), 0)) == "H-A"
    ensures Slot(KeyRefB, Renumbered(MakeEntry(KeyRefB, v), 0)) == "H-B"
  {
    assert CountChar(KeyRef, '-') == 0;
    assert CountChar(KeyRefA, '-') == 1;
    assert CountChar(KeyRefB, '-') == 1;
  }

  /** `'C' + str(n)`: the key of the n-th child. */
  function ChildKey(n: nat): string
  {
    "C" + NatToString(n)
  }

  /** The child number of a key written exactly as `ChildKey(n)`. */
  function ChildIndex(k: string): (r: Option<nat>)
    ensures r.Some? ==> k == ChildKey(r.value)
  {
    if |k| >= 2 && k[0] == 'C' && IsDecimal(k[1..]) && k == ChildKey(DecimalValue(k[1..]))
    then Some(DecimalValue(k[1..])) else None
  }

  lemma ChildIndexOfChildKey(n: nat)
    ensures ChildIndex(ChildKey(n)) == Some(n)
  {
    assert ChildKey(n)[1..] == NatToString(n);
  }

  lemma ChildKeyInjective(m: nat, n: nat)
    ensures ChildKey(m) == ChildKey(n) ==> m == n
  {
    if ChildKey(m) == ChildKey(n) {
      assert ChildKey(m)[1..] == NatToString(m);
      assert ChildKey(n)[1..] == NatToString(n);
      NatToStringInjective(m, n);
    }
  }

  /** Child keys numbered `c` or more: shrinks at every step of the child walks. */
  ghost function ChildKeysFrom(keys: set<string>, c: nat): set<string>
  {
    set k | k in keys && ChildIndex(k).Some? && ChildIndex(k).value >= c
  }

  lemma ChildKeysShrink(keys: set<string>, c: nat)
    requires ChildKey(c) in keys
    ensures ChildKeysFrom(keys, c + 1) < ChildKeysFrom(keys, c)
  {
    ChildIndexOfChildKey(c);
    assert ChildKey(c) in ChildKeysFrom(keys, c);
  }

  /** The first child number from `c` on whose key is absent: where the
      `while(1)` walks over `C1`, `C2`, ... stop. */
  function ChildRunEnd(keys: set<string>, c: nat): (r: nat)
    ensures r >= c && ChildKey(r) !in keys
    ensures forall n :: c <= n < r ==> ChildKey(n) in keys
    decreases ChildKeysFrom(keys, c)
  {
    if ChildKey(c) in keys then
      ChildKeysShrink(keys, c);
      ChildRunEnd(keys, c + 1)
    else c
  }

  /** True of the keys `C<c>` .. `C<end-1>` that the child walk visits. */
  predicate InChildRun(k: string, c: nat, end: nat)
  {
    ChildIndex(k).Some? && c <= ChildIndex(k).value < end
  }

  /** The loop of `smwObject.convertChildRefs`: from `C<c>` on, each present child
      entry is renamed to render as `C0H`, stopping at the first absent one. */
  function MarkChildren(data: map<string, Entry>, c: nat): (r: map<string, Entry>)
    ensures r.Keys == data.Keys
    ensures forall k :: k in data && InChildRun(k, c, ChildRunEnd(data.Keys, c)) ==>
              r[k] == data[k].(key := KeyChild)
    ensures forall k :: k in data && !InChildRun(k, c, ChildRunEnd(data.Keys, c)) ==> r[k] == data[k]
    decreases ChildKeysFrom(data.Keys, c)
  {
    if ChildKey(c) in data then
      ChildKeysShrink(data.Keys, c);
      ChildIndexOfChildKey(c);
      var data' := data[ChildKey(c) := data[ChildKey(c)].(key := KeyChild)];
      assert data'.Keys == data.Keys;
      var r := MarkChildren(data', c + 1);
      assert ChildRunEnd(data.Keys, c) == ChildRunEnd(data.Keys, c + 1);
      r
    else
      data
  }

  /** `convertChildRefs` in both flavours: the record becomes a parent and its
      child count is rewritten (`'n'` when reading, the number of `C0H` lines
      when writing); reading also renames the child entries. */
  function ConvertChildRefs(b: Body, flavor: Flavor): (r: Body)
    requires KeyChildCount in b.data
    ensures r.order == b.order && r.data.Keys == b.data.Keys && r.children == b.children
    ensures flavor == Plain ==> GetKey(r, KeyChildCount) == "n"
    ensures flavor == Diff ==> GetKey(r, KeyChildCount) == NatToString(b.children)
    ensures flavor == Diff ==> forall k :: k in b.data && k != KeyChildCount ==> r.data[k] == b.data[k]
    ensures forall k :: k in b.data ==> r.data[k].value == (if k == KeyChildCount then GetKey(r, k) else b.data[k].value)
  {
    match flavor
    case Plain =>
      var b' := SetValue(b, KeyChildCount, "n");
      b'.(data := MarkChildren(b'.data, 1))
    case Diff => SetValue(b, KeyChildCount, NatToString(b.children))
  }

  /** The derived attributes `smwObject.__init__` computes once the lines are
      read: name (`Nm`, else `Cmn1`), type, symbol category, parent, the ids,
      and the child conversion for non-device parents. */
  function Build(b: Body, flavor: Flavor): (r: Record)
    ensures r.name == (if KeyName in b.data then GetKey(b, KeyName) else GetKey(b, KeyComment1))
    ensures r.kind == GetKey(b, KeyType) && r.smc == GetKey(b, KeySymType)
    ensures r.parent == (match PyInt(GetKey(b, KeyParent)) case Some(p) => p case None => 0)
    ensures r.h == GetKey(b, KeyRef) && r.refs == Ids(GetKey(b, KeyRef), GetKey(b, KeyRefA), GetKey(b, KeyRefB))
    ensures !r.hidden
    ensures r.isParent <==> KeyChildCount in b.data && GetKey(b, KeyType) != TypeDevice
    ensures !r.isParent ==> r.body == b
    ensures r.isParent ==> r.body == ConvertChildRefs(b, flavor)
    ensures r.body.order == b.order && r.body.data.Keys == b.data.Keys
  {
    var name := if KeyName in b.data then GetKey(b, KeyName) else GetKey(b, KeyComment1);
    var kind := GetKey(b, KeyType);
    var parent := match PyInt(GetKey(b, KeyParent)) case Some(p) => p case None => 0;
    var h := GetKey(b, KeyRef);
    var ids := Ids(h, GetKey(b, KeyRefA), GetKey(b, KeyRefB));
    var isParent := KeyChildCount in b.data && kind != TypeDevice;
    var body := if isParent then ConvertChildRefs(b, flavor) else b;
    Record(body, name, kind, GetKey(b, KeySymType), parent, h, ids, false, isParent)
  }

  /** The lines of a record's text, fed to `newKey`. */
  function ParseBody(s: string): Result<Body>
  {
    ParseLines(EmptyBody, Split(s, CRLF))
  }

  /** `smwObject(string)` / `diffObject(string)`. */
  function Parse(s: string, flavor: Flavor): (r: Result<Record>)
    ensures r.Ok? <==> ParseBody(s).Ok?
    ensures r.Ok? ==> r.value == Build(ParseBody(s).value, flavor)
  {
    match ParseBody(s)
    case Err(e) => Err(e)
    case Ok(b) => Ok(Build(b, flavor))
  }

  /** `setRef`: the record's `H` slot takes the value, created if absent; the
      parse-time ids in `refs` are untouched. */
  function SetRef(r: Record, v: string): (r': Record)
    ensures r'.h == v && GetKey(r'.body, KeyRef) == v
    ensures KeyRef !in r.body.data ==> KeyRef in r'.body.order
    ensures forall k :: k != KeyRef ==> GetKey(r'.body, k) == GetKey(r.body, k)
    ensures r'.body.data.Keys == r.body.data.Keys + {KeyRef}
    ensures r' == r.(body := r'.body, h := v)
  {
    if KeyRef in r.body.data then r.(body := SetValue(r.body, KeyRef, v), h := v)
    else
      assert CountChar(KeyRef, '-') == 0;
      r.(body := NewKey(r.body, KeyRef, v).value, h := v)
  }

  /** An input or output key such as `I5` or `O10`: first letter `I` or `O`,
      the rest an integer other than zero. */
  predicate IsPortKey(k: string)
  {
    |k| >= 1 && (k[0] == 'I' || k[0] == 'O') && PyInt(k[1..]).Some? && PyInt(k[1..]).value != 0
  }

  /** `fixSignals` in both flavours: on a symbol record, every port value is
      translated through `table` (signal id to name when reading, name to id
      when writing); a value missing from the table raises `KeyError`. */
  function FixSignals(r: Record, table: map<string, string>): (r': Result<Record>)
    ensures r.kind != TypeSymbol ==> r' == Ok(r)
    ensures r'.Err? <==> r.kind == TypeSymbol && exists k :: k in r.body.data && IsPortKey(k) && r.body.data[k].value !in table
    ensures r'.Ok? ==> r'.value == r.(body := r'.value.body)
    ensures r'.Ok? ==> r'.value.body.order == r.body.order && r'.value.body.data.Keys == r.body.data.Keys
    ensures r'.Ok? && r.kind == TypeSymbol ==> forall k :: k in r.body.data && IsPortKey(k) ==>
              r'.value.body.data[k] == r.body.data[k].(value := table[r.body.data[k].value])
    ensures r'.Ok? ==> forall k :: k in r.body.data && !IsPortKey(k) ==> r'.value.body.data[k] == r.body.data[k]
  {
    var data := r.body.data;
    if r.kind != TypeSymbol then Ok(r)
    else if exists k :: k in data && IsPortKey(k) && data[k].value !in table then Err(UnknownSignal)
    else
      var data' := map k | k in data :: if IsPortKey(k) then data[k].(value := table[data[k].value]) else data[k];
      Ok(r.(body := r.body.(data := data')))
  }

  /** Translating ports to names and back through inverse tables restores the record. */
  lemma FixSignalsRoundTrip(r: Record, toName: map<string, string>, toId: map<string, string>)
    requires FixSignals(r, toName).Ok?
    requires forall k :: k in r.body.data && IsPortKey(k) ==>
               r.body.data[k].value in toName && toName[r.body.data[k].value] in toId
               && toId[toName[r.body.data[k].value]] == r.body.data[k].value
    ensures FixSignals(FixSignals(r, toName).value, toId) == Ok(r)
  {
    var r1 := FixSignals(r, toName).value;
    if r.kind == TypeSymbol {
      var r2 := FixSignals(r1, toId);
      assert r2.Ok?;
      assert r2.value.body.data == r.body.data;
    }
  }

  /** `_line` fed through `newKey` in order: the body after a prefix of the
      lines is what the rest of the lines continue from. */
  lemma {:induction false} ParseLinesAppend(b: Body, xs: seq<string>, ys: seq<string>)
    ensures ParseLines(b, xs + ys) ==
              match ParseLines(b, xs) case Err(e) => Err(e) case Ok(b') => ParseLines(b', ys)
    decreases |xs|
  {
    if |xs| > 0 {
      assert (xs + ys)[1..] == xs[1..] + ys;
      assert (xs + ys)[0] == xs[0];
      match SplitLine(xs[0])
      case None => ParseLinesAppend(b, xs[1..], ys);
      case Some(kv) =>
        match NewKey(b, kv.0, kv.1)
        case Err(e) =>
        case Ok(b') => ParseLinesAppend(b', xs[1..], ys);
    } else {
      assert xs + ys == ys;
    }
  }

  /** A key that renders and reads back as itself: no `=`, no dash, not the
      tool's child key, no CRLF. */
  ghost predicate PlainKey(k: string)
  {
    '=' !in k && CountChar(k, '-') == 0 && k != KeyChild && NoCRLF(k)
  }

  /** A record body that went through no renaming: each slot is its own
      key without a side tag, every slot appears once in the order, and no
      child line was renumbered. */
  ghost predicate Canonical(b: Body)
  {
    && b.children == 0
    && (forall i, j :: 0 <= i < j < |b.order| ==> b.order[i] != b.order[j])
    && (forall k :: k in b.data <==> k in b.order)
    && (forall k :: k in b.data ==> b.data[k] == Entry(k, "", b.data[k].value) && PlainKey(k) && NoCRLF(b.data[k].value))
  }

  /** The first `n` keys of a canonical body, as the parse has built them. */
  ghost function PrefixBody(b: Body, n: nat): Body
    requires n <= |b.order|
  {
    Body(map k | k in b.order[..n] && k in b.data :: b.data[k], b.order[..n], 0)
  }

  /** The first occurrence is found wherever it is. */
  lemma {:induction false} FindCharFirst(s: string, c: char, i: nat)
    requires i < |s| && s[i] == c && c !in s[..i]
    ensures FindChar(s, c) == Some(i)
  {
    if i > 0 {
      assert s[0] in s[..i];
      assert s[1..][..i - 1] == s[1..i];
      assert forall x :: x in s[1..i] ==> x in s[..i];
      FindCharFirst(s[1..], c, i - 1);
    }
  }

  /** A `key=value` line whose key holds no `=` splits back into key and value. */
  lemma SplitLineKeyValue(k: string, v: string)
    requires '=' !in k
    ensures SplitLine(k + "=" + v) == Some((k, v))
  {
    var line := k + "=" + v;
    assert line[..|k|] == k;
    FindCharFirst(line, '=', |k|);
    assert line[|k| + 1..] == v;
  }

  lemma NewKeyExtendsPrefix(b: Body, n: nat)
    requires Canonical(b) && n < |b.order|
    ensures NewKey(PrefixBody(b, n), b.order[n], b.data[b.order[n]].value) == Ok(PrefixBody(b, n + 1))
  {
    var k := b.order[n];
    var v := b.data[k].value;
    var p := PrefixBody(b, n);
    assert MakeEntry(k, v) == Entry(k, "", v);
    assert k !in b.order[..n];
    assert k !in p.data;
    var q := NewKey(p, k, v);
    assert b.order[..n + 1] == b.order[..n] + [k];
    assert q.value.data == PrefixBody(b, n + 1).data;
  }

  lemma {:induction false} ParseRenderedFrom(b: Body, n: nat)
    requires Canonical(b) && n <= |b.order|
    ensures ParseLines(PrefixBody(b, n), RenderedLines(b.data, b.order[n..])) == Ok(b)
    decreases |b.order| - n
  {
    if n == |b.order| {
      assert b.order[..n] == b.order;
      assert PrefixBody(b, n).data == b.data;
    } else {
      var k := b.order[n];
      var v := b.data[k].value;
      assert b.order[n..][1..] == b.order[n + 1..];
      assert RenderedLines(b.data, b.order[n..]) == [k + "=" + v] + RenderedLines(b.data, b.order[n + 1..]);
      SplitLineKeyValue(k, v);
      NewKeyExtendsPrefix(b, n);
      ParseRenderedFrom(b, n + 1);
    }
  }

  lemma {:induction false} RenderedLinesLength(data: map<string, Entry>, order: seq<string>)
    requires forall k :: k in order ==> k in data
    ensures |RenderedLines(data, order)| == |order|
  {
    if |order| > 0 {
      RenderedLinesLength(data, order[1..]);
    }
  }

  /** Serializing a canonical body and parsing the text gives back the body. */
  lemma ParseRenderRoundTrip(b: Body)
    requires Canonical(b)
    ensures ParseBody(Render(b)) == Ok(b)
  {
    var lines := RenderedLines(b.data, b.order);
    RenderedLinesLength(b.data, b.order);
    if |lines| == 0 {
      assert b.order == [];
      assert b.data == map[];
      assert b == EmptyBody;
      assert Render(b) == "";
      assert IndexOf("", CRLF) == None;
      assert Split("", CRLF) == [""];
      assert SplitLine("") == None;
      assert ParseLines(EmptyBody, [""]) == ParseLines(EmptyBody, []);
    } else {
      assert PrefixBody(b, 0) == EmptyBody;
      assert b.order[0..] == b.order;
      ParseRenderedFrom(b, 0);
      RenderedLinesNoCRLF(b.data, b.order);
      RenderSplits(b);
      ParseLinesAppend(EmptyBody, ["["] + lines, ["]"]);
      ParseLinesAppend(EmptyBody, ["["], lines);
      assert SplitLine("[") == None && SplitLine("]") == None;
    }
  }

  lemma {:induction false} RenderedLinesNoCRLF(data: map<string, Entry>, order: seq<string>)
    requires forall k :: k in data ==> NoCRLF(data[k].key) && NoCRLF(data[k].value)
    ensures forall l :: l in RenderedLines(data, order) ==> NoCRLF(l)
  {
    if |order| > 0 {
      RenderedLinesNoCRLF(data, order[1..]);
      if order[0] in data {
        var e := data[order[0]];
        NoCRLFAround(e.key, '=', e.value);
        assert e.Render() == e.key + ['='] + e.value;
      }
    }
  }

  /** The body after reading one `C0H` line per value. */
  ghost predicate ChildBody(b: Body, values: seq<string>)
  {
    && b.children == |values|
    && |b.order| == |values|
    && (forall k :: k in b.data <==> k in b.order)
    && forall i :: 0 <= i < |values| ==>
         b.order[i] == ChildKey(i + 1) && b.order[i] in b.data
         && b.data[b.order[i]] == Entry(ChildKey(i + 1), "", values[i])
  }

  lemma NewChildKey(b: Body, values: seq<string>, v: string)
    requires ChildBody(b, values)
    ensures var r := NewKey(b, KeyChild, v); r.Ok? && ChildBody(r.value, values + [v])
  {
    var n := |values|;
    var key := ChildKey(n + 1);
    var e := Entry(key, "", v);
    ChildEntry(b.children, v);
    forall i | 0 <= i < n
      ensures b.order[i] != key
    {
      ChildKeyInjective(i + 1, n + 1);
    }
    assert key !in b.data;
    var r := Body(b.data[key := e], b.order + [key], b.children + 1);
    assert NewKey(b, KeyChild, v) == Ok(r);
    ChildBodyExtends(b, values, v, r);
  }

  /** A `C0H` entry read when `children` children are stored becomes the next child. */
  lemma ChildEntry(children: nat, v: string)
    ensures MakeEntry(KeyChild, v) == Entry(KeyChild, "", v)
    ensures Renumbered(MakeEntry(KeyChild, v), children) == Entry(ChildKey(children + 1), "", v)
    ensures Slot(KeyChild, Renumbered(MakeEntry(KeyChild, v), children)) == ChildKey(children + 1)
  {
    assert CountChar(KeyChild, '-') == 0;
    assert ChildKey(children + 1)[..1] == "C";
  }

  /** Appending the next child keeps the shape of a child body. */
  lemma ChildBodyExtends(b: Body, values: seq<string>, v: string, r: Body)
    requires ChildBody(b, values)
    requires var key := ChildKey(|values| + 1);
             && key !in b.data
             && r == Body(b.data[key := Entry(key, "", v)], b.order + [key], b.children + 1)
    ensures ChildBody(r, values + [v])
  {
    var vs := values + [v];
    forall i | 0 <= i < |vs|
      ensures r.order[i] == ChildKey(i + 1) && r.order[i] in r.data
              && r.data[r.order[i]] == Entry(ChildKey(i + 1), "", vs[i])
    {
      if i < |values| {
        assert r.order[i] == b.order[i];
      }
    }
  }

  /** One more `key=value` line after a successful parse is one more `newKey` call. */
  lemma ParseOneMore(b: Body, lines: seq<string>, k: string, v: string)
    requires '=' !in k && ParseLines(b, lines).Ok?
    ensures ParseLines(b, lines + [k + "=" + v]) == NewKey(ParseLines(b, lines).value, k, v)
  {
    ParseLinesAppend(b, lines, [k + "=" + v]);
    SplitLineKeyValue(k, v);
    assert [k + "=" + v][1..] == [];
  }

  /** Successive `C0H` lines are stored as `C1`, `C2`, ... in order. */
  lemma {:induction false} ChildLinesRenumbered(values: seq<string>)
    ensures ParseLines(EmptyBody, ChildLines(values)).Ok?
    ensures ChildBody(ParseLines(EmptyBody, ChildLines(values)).value, values)
    decreases |values|
  {
    if |values| > 0 {
      ChildLinesRenumbered(values[..|values| - 1]);
      ChildLinesStep(values);
    }
  }

  /** One more `C0H` line stores one more child. */
  lemma ChildLinesStep(values: seq<string>)
    requires |values| > 0
    requires var init := values[..|values| - 1];
             ParseLines(EmptyBody, ChildLines(init)).Ok? && ChildBody(ParseLines(EmptyBody, ChildLines(init)).value, init)
    ensures ParseLines(EmptyBody, ChildLines(values)).Ok?
    ensures ChildBody(ParseLines(EmptyBody, ChildLines(values)).value, values)
  {
    var n := |values| - 1;
    var init := values[..n];
    var b := ParseLines(EmptyBody, ChildLines(init)).value;
    var lines := ChildLines(init) + [KeyChild + "=" + values[n]];
    assert ChildLines(values) == lines;
    ParseOneMore(EmptyBody, ChildLines(init), KeyChild, values[n]);
    NewChildKey(b, init, values[n]);
    var r := NewKey(b, KeyChild, values[n]).value;
    assert ParseLines(EmptyBody, lines) == Ok(r);
    assert init + [values[n]] == values;
  }

  /** `C0H=v` lines, one per value. */
  function ChildLines(values: seq<string>): seq<string>
  {
    if |values| == 0 then [] else ChildLines(values[..|values| - 1]) + [KeyChild + "=" + values[|values| - 1]]
  }
}

=== FILE: refs.dfy ===
/** The reference tables `outFile` keeps per record type, and the assignment
    of fresh, unique `H` ids (`buildRefTables`, `getUniqueRef`,
    `buildForwardReference`). Records are named by their index in the file,
    which stands for Python object identity. */
module RefTables {
  import opened Text
  import opened Outcomes
  import opened Records
  import Snapshots

  /** What a table entry points at: one of the three reserved signals, or a record. */
  datatype Ref = Reserved(id: string, name: string) | Obj(index: nat)

  /** An entry of the `'final'` table: the pre-claimed `''` (`False`) or a record. */
  datatype Claim = Taken | Owner(index: nat)

  /** The reserved signals the signal base table starts with. */
  const ReservedSignals: map<string, Ref> :=
    map["1" := Reserved("1", "0"), "2" := Reserved("2", "1"), "3" := Reserved("3", "Local")]

  /** `references[t]['A']`, `['B']` (own entries of the `redict`s) and `['final']`. */
  datatype Tables = Tables(a: map<string, Ref>, b: map<string, Ref>, final: map<string, Claim>)

  /** A final table as `getUniqueRef` creates it: `''` is claimed so no record gets it. */
  predicate FinalTable(final: map<string, Claim>)
  {
    "" in final && final[""] == Taken
  }

  const FreshTables := Tables(map[], map[], map["" := Taken])

  /** Everything `outFile` tracks while repairing references: the records, the
      base table every non-signal type shares (the mutable default argument of
      `buildRefTables`), the signal base table, and the per-type tables. */
  datatype State = State(records: seq<Record>, shared: map<string, Ref>, signals: map<string, Ref>, tables: map<string, Tables>)

  /** `references[t]['']`. */
  function Base(s: State, t: string): map<string, Ref>
  {
    if t == TypeSignal then s.signals else s.shared
  }

  predicate ValidRef(s: State, r: Ref)
  {
    r.Obj? ==> r.index < |s.records|
  }

  predicate ValidClaim(s: State, c: Claim)
  {
    c.Owner? ==> c.index < |s.records|
  }

  /** Every record a table points at exists, and every final table keeps `''` claimed. */
  ghost predicate Valid(s: State)
  {
    && (forall k :: k in s.shared ==> ValidRef(s, s.shared[k]))
    && (forall k :: k in s.signals ==> ValidRef(s, s.signals[k]))
    && (forall t :: t in s.tables ==> FinalTable(s.tables[t].final))
    && (forall t, k :: t in s.tables && k in s.tables[t].a ==> ValidRef(s, s.tables[t].a[k]))
    && (forall t, k :: t in s.tables && k in s.tables[t].b ==> ValidRef(s, s.tables[t].b[k]))
    && (forall t, k :: t in s.tables && k in s.tables[t].final ==> ValidClaim(s, s.tables[t].final[k]))
  }

  /** The `H` a reference resolves to now. */
  function TargetId(s: State, r: Ref): string
    requires ValidRef(s, r)
  {
    match r
    case Reserved(id, _) => id
    case Obj(i) => s.records[i].h
  }

  /** The record has an id of some kind, so `addReferences` builds tables for its type. */
  predicate HasId(r: Record)
  {
    r.refs.base != "" || r.refs.a != "" || r.refs.b != ""
  }

  /** The types `references` holds: the signal type always, and every type with
      a record carrying an id. */
  function RefKinds(records: seq<Record>): (ks: set<string>)
    ensures forall t :: t in ks <==> t == TypeSignal || exists k :: 0 <= k < |records| && records[k].kind == t && HasId(records[k])
  {
    {TypeSignal} + set k | 0 <= k < |records| && HasId(records[k]) :: records[k].kind
  }

  /** `int(H) + 1`, `+ 2`, ... until the table does not hold it. */
  function FirstFree(final: map<string, Claim>, n: int): (id: string)
    ensures id !in final
    ensures exists m :: m >= n && id == IntToString(m) && forall j :: n <= j < m ==> IntToString(j) in final
    decreases Above(final, n)
  {
    if IntToString(n) in final then
      AboveShrinks(final, n);
      var id := FirstFree(final, n + 1);
      var m :| m >= n + 1 && id == IntToString(m) && forall j :: n + 1 <= j < m ==> IntToString(j) in final;
      assert forall j :: n <= j < m ==> IntToString(j) in final;
      id
    else
      IntToString(n)
  }

  /** The integer keys of a table at or above `n`. */
  ghost function Above(final: map<string, Claim>, n: int): set<string>
  {
    set k | k in final && PyInt(k).Some? && PyInt(k).value >= n
  }

  lemma AboveShrinks(final: map<string, Claim>, n: int)
    requires IntToString(n) in final
    ensures Above(final, n + 1) < Above(final, n)
  {
    PyIntOfIntToString(n);
    assert IntToString(n) in Above(final, n);
  }

  /** `obj.H or obj.HB or obj.HA`: the first non-empty of the three ids. */
  function FallbackId(r: Record): string
  {
    if r.h != "" then r.h else if r.refs.b != "" then r.refs.b else r.refs.a
  }

  /** The record does not own its `H` yet, and the table holds all three of
      its parse-time ids, so `getUniqueRef` has to increment. */
  predicate AllTaken(final: map<string, Claim>, index: nat, r: Record)
  {
    !(r.h in final && final[r.h] == Owner(index)) && r.refs.base in final && r.refs.b in final && r.refs.a in final
  }

  /** `getUniqueRef(t, obj)` on the record at `index`: keep an `H` the final
      table already gives this record; else claim the first of the record's
      `H`, `H-B`, `H-A` ids the table does not hold; else take `H or HB or HA`
      and, while the table holds it, add one. An empty or non-integer value
      reaching the increment raises. */
  function GetUniqueRef(final: map<string, Claim>, index: nat, r: Record, kind: string): (res: Result<(string, map<string, Claim>)>)
    requires FinalTable(final)
    ensures res.Ok? ==> var (id, final') := res.value;
              && id != ""
              && (id !in final || final[id] == Owner(index))
              && final' == final[id := Owner(index)]
    ensures r.h in final && final[r.h] == Owner(index) ==> res == Ok((r.h, final))
    ensures !(r.h in final && final[r.h] == Owner(index)) ==>
              if r.refs.base !in final then res.Ok? && res.value.0 == r.refs.base
              else if r.refs.b !in final then res.Ok? && res.value.0 == r.refs.b
              else if r.refs.a !in final then res.Ok? && res.value.0 == r.refs.a
              else res.Ok? ==> res.value.0 !in final
    ensures AllTaken(final, index, r) && FallbackId(r) !in final ==> res == Ok((FallbackId(r), final[FallbackId(r) := Owner(index)]))
    ensures AllTaken(final, index, r) && FallbackId(r) in final && PyInt(FallbackId(r)).Some? ==>
              res.Ok? && res.value.0 == FirstFree(final, PyInt(FallbackId(r)).value + 1)
    ensures res.Err? <==> AllTaken(final, index, r) && FallbackId(r) in final && PyInt(FallbackId(r)).None?
    ensures res.Err? ==> res.error == EmptyId(kind) || res.error.NonIntegerId?
    ensures res.Err? && res.error == EmptyId(kind) ==> r.h == "" && r.refs.b == "" && r.refs.a == ""
    ensures r.h == "" && r.refs.base == "" && r.refs.b == "" && r.refs.a == "" ==> res == Err(EmptyId(kind))
  {
    if r.h in final && final[r.h] == Owner(index) then Ok((r.h, final))
    else if r.refs.base !in final then Ok((r.refs.base, final[r.refs.base := Owner(index)]))
    else if r.refs.b !in final then Ok((r.refs.b, final[r.refs.b := Owner(index)]))
    else if r.refs.a !in final then Ok((r.refs.a, final[r.refs.a := Owner(index)]))
    else
      var fallback := FallbackId(r);
      if fallback !in final then Ok((fallback, final[fallback := Owner(index)]))
      else
        match PyInt(fallback)
        case None => if fallback == "" then Err(EmptyId(kind)) else Err(NonIntegerId(kind, fallback))
        case Some(n) =>
          var id := FirstFree(final, n + 1);
          Ok((id, final[id := Owner(index)]))
  }

  /** When every id of the record is taken, the new id is the fallback plus the
      smallest increment the table does not hold. */
  lemma GetUniqueRefIncrements(final: map<string, Claim>, index: nat, r: Record, kind: string)
    requires FinalTable(final)
    requires !(r.h in final && final[r.h] == Owner(index))
    requires r.refs.base in final && r.refs.b in final && r.refs.a in final
    requires r.h == r.refs.base
    requires GetUniqueRef(final, index, r, kind).Ok?
    ensures var fallback := FallbackId(r);
            var id := GetUniqueRef(final, index, r, kind).value.0;
            && PyInt(fallback).Some? && PyInt(id).Some? && PyInt(id).value > PyInt(fallback).value
            && forall j :: PyInt(fallback).value < j < PyInt(id).value ==> IntToString(j) in final
  {
    var fallback := FallbackId(r);
    var n := PyInt(fallback).value;
    var id := FirstFree(final, n + 1);
    var m :| m >= n + 1 && id == IntToString(m) && forall j :: n + 1 <= j < m ==> IntToString(j) in final;
    PyIntOfIntToString(m);
  }

  /** `table[id] = obj`, skipped for an empty id. */
  function Bound(table: map<string, Ref>, id: string, index: nat): (m: map<string, Ref>)
    ensures id != "" ==> id in m && m[id] == Obj(index)
    ensures forall k :: k != id ==> (k in m <==> k in table) && (k in table ==> m[k] == table[k])
    ensures id == "" ==> m == table
  {
    if id != "" then table[id := Obj(index)] else table
  }

  /** `self.references[t][file][id] = obj` for each non-empty parse-time id. */
  function Register(s: State, t: string, index: nat): (s': State)
    requires t in s.tables && index < |s.records|
    ensures s'.records == s.records
    ensures s'.tables.Keys == s.tables.Keys
    ensures var ids := s.records[index].refs;
            && Base(s', t) == Bound(Base(s, t), ids.base, index)
            && s'.tables[t].a == Bound(s.tables[t].a, ids.a, index)
            && s'.tables[t].b == Bound(s.tables[t].b, ids.b, index)
    ensures forall u :: u in s.tables ==> s'.tables[u].final == s.tables[u].final
    ensures forall u :: u in s.tables && u != t ==> s'.tables[u] == s.tables[u]
    ensures t != TypeSignal ==> s'.signals == s.signals
    ensures t == TypeSignal ==> s'.shared == s.shared
  {
    var r := s.records[index];
    var ids := r.refs;
    var tb := s.tables[t];
    var base := Base(s, t);
    var base' := Bound(base, ids.base, index);
    var tb' := tb.(a := Bound(tb.a, ids.a, index), b := Bound(tb.b, ids.b, index));
    var s1 := s.(tables := s.tables[t := tb']);
    if t == TypeSignal then s1.(signals := base') else s1.(shared := base')
  }

  /** One record of `buildForwardReference`: pick its unique id, register its
      parse-time ids, and `setRef` the new id. */
  function ForwardOne(s: State, t: string, index: nat): (res: Result<State>)
    requires t in s.tables && index < |s.records| && FinalTable(s.tables[t].final)
    ensures res.Ok? ==> |res.value.records| == |s.records|
    ensures res.Ok? ==> res.value.tables.Keys == s.tables.Keys
    ensures res.Ok? ==> forall u :: u in s.tables && u != t ==> res.value.tables[u].final == s.tables[u].final
    ensures res.Ok? ==> forall i :: 0 <= i < |s.records| && i != index ==> res.value.records[i] == s.records[i]
    ensures res.Ok? ==> forall i :: 0 <= i < |s.records| ==> res.value.records[i].kind == s.records[i].kind
    ensures res.Ok? ==> var id := res.value.records[index].h;
              && res.value.records[index] == SetRef(s.records[index], id)
              && res.value.tables[t].final == s.tables[t].final[id := Owner(index)]
              && (id !in s.tables[t].final || s.tables[t].final[id] == Owner(index))
              && id != ""
    ensures res.Ok? ==> var ids := s.records[index].refs;
              && Base(res.value, t) == Bound(Base(s, t), ids.base, index)
              && res.value.tables[t].a == Bound(s.tables[t].a, ids.a, index)
              && res.value.tables[t].b == Bound(s.tables[t].b, ids.b, index)
    ensures res.Err? ==> res.error.EmptyId? || res.error.NonIntegerId?
    ensures var pick := GetUniqueRef(s.tables[t].final, index, s.records[index], t);
            && (res.Ok? <==> pick.Ok?)
            && (res.Err? ==> res.error == pick.error)
            && (res.Ok? ==> res.value.records[index].h == pick.value.0 && res.value.tables[t].final == pick.value.1)
  {
    var r := s.records[index];
    var pick :- GetUniqueRef(s.tables[t].final, index, r, t);
    var (id, final') := pick;
    var s1 := s.(tables := s.tables[t := s.tables[t].(final := final')]);
    var s2 := Register(s1, t, index);
    Ok(s2.(records := s2.records[index := SetRef(r, id)]))
  }

  /** Each record of the list has its `H` bound to itself in `final`. */
  ghost predicate OwnsId(s: State, t: string, done: seq<nat>)
    requires t in s.tables
  {
    forall i :: i in done ==> i < |s.records| && s.records[i].h in s.tables[t].final && s.tables[t].final[s.records[i].h] == Owner(i)
  }

  /** `buildForwardReference(t)` over the remaining indices of the type. */
  function ForwardList(s: State, t: string, todo: seq<nat>): (res: Result<State>)
    requires t in s.tables && FinalTable(s.tables[t].final)
    requires forall i :: i in todo ==> i < |s.records|
    ensures res.Ok? ==> |res.value.records| == |s.records|
    ensures res.Ok? ==> res.value.tables.Keys == s.tables.Keys && FinalTable(res.value.tables[t].final)
    ensures res.Ok? ==> forall u :: u in s.tables && u != t ==> res.value.tables[u].final == s.tables[u].final
    ensures res.Ok? ==> forall i :: 0 <= i < |s.records| && i !in todo ==> res.value.records[i] == s.records[i]
    ensures res.Ok? ==> forall i :: 0 <= i < |s.records| ==> res.value.records[i].kind == s.records[i].kind
    ensures res.Err? ==> res.error.EmptyId? || res.error.NonIntegerId?
    decreases |todo|
  {
    if |todo| == 0 then Ok(s)
    else
      assert todo[0] in todo;
      var s1 :- ForwardOne(s, t, todo[0]);
      assert forall i :: i in todo[1..] ==> i in todo;
      ForwardList(s1, t, todo[1..])
  }

  /** One step keeps the earlier records' ids and adds the new one's. */
  lemma ForwardOneOwns(s: State, t: string, done: seq<nat>, x: nat)
    requires t in s.tables && FinalTable(s.tables[t].final) && x < |s.records|
    requires x !in done && OwnsId(s, t, done)
    requires ForwardOne(s, t, x).Ok?
    ensures OwnsId(ForwardOne(s, t, x).value, t, done + [x])
  {
    var s1 := ForwardOne(s, t, x).value;
    var id := s1.records[x].h;
    forall i | i in done + [x]
      ensures i < |s1.records| && s1.records[i].h in s1.tables[t].final && s1.tables[t].final[s1.records[i].h] == Owner(i)
    {
      if i != x {
        assert i in done;
        assert s1.records[i] == s.records[i];
        assert s.tables[t].final[s.records[i].h] == Owner(i);
      }
    }
  }

  /** `ForwardList` is `ForwardOne` on the first index, then the rest. */
  lemma ForwardListStep(s: State, t: string, todo: seq<nat>)
    requires t in s.tables && FinalTable(s.tables[t].final)
    requires forall i :: i in todo ==> i < |s.records|
    requires |todo| > 0 && ForwardList(s, t, todo).Ok?
    ensures todo[0] < |s.records| && ForwardOne(s, t, todo[0]).Ok?
    ensures var s1 := ForwardOne(s, t, todo[0]).value;
            && t in s1.tables && FinalTable(s1.tables[t].final)
            && (forall i :: i in todo[1..] ==> i < |s1.records|)
            && ForwardList(s, t, todo) == ForwardList(s1, t, todo[1..])
  {
    assert todo[0] in todo;
    assert forall i :: i in todo[1..] ==> i in todo;
  }

  /** Splitting a duplicate-free list at its head. */
  lemma DistinctTail(done: seq<nat>, todo: seq<nat>)
    requires |todo| > 0
    requires forall p, q :: 0 <= p < q < |todo| ==> todo[p] != todo[q]
    requires forall i :: i in done ==> i !in todo
    ensures todo[0] !in done
    ensures forall p, q :: 0 <= p < q < |todo[1..]| ==> todo[1..][p] != todo[1..][q]
    ensures forall i :: i in done + [todo[0]] ==> i !in todo[1..]
    ensures done + [todo[0]] + todo[1..] == done + todo
  {
    assert todo[0] in todo;
    forall i | i in done + [todo[0]]
      ensures i !in todo[1..]
    {
      if i == todo[0] {
        forall q | 0 <= q < |todo[1..]|
          ensures todo[1..][q] != i
        {
          assert todo[1..][q] == todo[q + 1];
        }
      } else {
        assert forall y :: y in todo[1..] ==> y in todo;
      }
    }
  }

  /** Within one type, every processed record ends up owning its new id in
      the final table: the final table only grows and never rebinds an id. */
  lemma {:induction false} ForwardListOwns(s: State, t: string, done: seq<nat>, todo: seq<nat>)
    requires t in s.tables && FinalTable(s.tables[t].final)
    requires forall i :: i in todo ==> i < |s.records|
    requires forall p, q :: 0 <= p < q < |todo| ==> todo[p] != todo[q]
    requires forall i :: i in done ==> i !in todo
    requires OwnsId(s, t, done)
    requires ForwardList(s, t, todo).Ok?
    ensures OwnsId(ForwardList(s, t, todo).value, t, done + todo)
    decreases |todo|
  {
    if |todo| > 0 {
      ForwardListStep(s, t, todo);
      DistinctTail(done, todo);
      ForwardOneOwns(s, t, done, todo[0]);
      var s1 := ForwardOne(s, t, todo[0]).value;
      ForwardListOwns(s1, t, done + [todo[0]], todo[1..]);
    }
  }

  /** Distinct records of one type receive distinct ids. */
  lemma OwnedIdsDistinct(s: State, t: string, done: seq<nat>, i: nat, j: nat)
    requires t in s.tables && OwnsId(s, t, done)
    requires i in done && j in done && i != j
    ensures s.records[i].h != s.records[j].h
  {
  }

  /** `buildForwardReference(t)`: the type's records in file order; the
      lookup `self.objList[t]` raises when the type has no record list. */
  function ForwardType(s: State, t: string): (res: Result<State>)
    requires t in s.tables && FinalTable(s.tables[t].final)
    ensures |Snapshots.Positions(s.records, t)| == 0 ==> res == Err(NoRecordList(t))
    ensures res.Ok? ==> |res.value.records| == |s.records| && res.value.tables.Keys == s.tables.Keys
    ensures res.Ok? ==> FinalTable(res.value.tables[t].final)
    ensures res.Ok? ==> forall u :: u in s.tables && u != t ==> res.value.tables[u].final == s.tables[u].final
    ensures res.Ok? ==> forall i :: 0 <= i < |s.records| ==> res.value.records[i].kind == s.records[i].kind
    ensures res.Err? ==> res.error.NoRecordList? || res.error.EmptyId? || res.error.NonIntegerId?
  {
    var todo := Snapshots.Positions(s.records, t);
    if |todo| == 0 then Err(NoRecordList(t))
    else
      assert forall i :: i in todo ==> i < |s.records|;
      ForwardList(s, t, todo)
  }

  /** `for smwType in self.references: self.buildForwardReference(smwType)`,
      visiting the types in the given order. */
  function ForwardAll(s: State, kinds: seq<string>): (res: Result<State>)
    requires forall t :: t in kinds ==> t in s.tables && FinalTable(s.tables[t].final)
    ensures res.Ok? ==> |res.value.records| == |s.records| && res.value.tables.Keys == s.tables.Keys
    ensures res.Ok? ==> forall i :: 0 <= i < |s.records| ==> res.value.records[i].kind == s.records[i].kind
    ensures res.Ok? ==> forall t :: t in s.tables && t !in kinds ==> res.value.tables[t].final == s.tables[t].final
    ensures res.Err? ==> res.error.NoRecordList? || res.error.EmptyId? || res.error.NonIntegerId?
    decreases |kinds|
  {
    if |kinds| == 0 then Ok(s)
    else
      var t := kinds[0];
      assert t in kinds;
      var s1 :- ForwardType(s, t);
      var rest := kinds[1..];
      forall u | u in rest
        ensures u in kinds && u in s1.tables && FinalTable(s1.tables[u].final)
      {
        assert u in kinds;
      }
      ForwardAll(s1, rest)
  }

  /** A successful pass forwards the first type's records, then the rest. */
  lemma ForwardAllStep(s: State, kinds: seq<string>)
    requires forall t :: t in kinds ==> t in s.tables && FinalTable(s.tables[t].final)
    requires |kinds| > 0 && ForwardAll(s, kinds).Ok?
    ensures var todo := Snapshots.Positions(s.records, kinds[0]);
            && kinds[0] in s.tables && FinalTable(s.tables[kinds[0]].final)
            && (forall i :: i in todo ==> i < |s.records| && s.records[i].kind == kinds[0])
            && ForwardList(s, kinds[0], todo).Ok?
            && var s1 := ForwardList(s, kinds[0], todo).value;
               && (forall v :: v in kinds[1..] ==> v in kinds && v in s1.tables && FinalTable(s1.tables[v].final))
               && ForwardAll(s, kinds) == ForwardAll(s1, kinds[1..])
  {
    assert kinds[0] in kinds;
    var todo := Snapshots.Positions(s.records, kinds[0]);
    assert |todo| > 0;
    assert ForwardType(s, kinds[0]) == ForwardList(s, kinds[0], todo);
    var s1 := ForwardList(s, kinds[0], todo).value;
    forall v | v in kinds[1..]
      ensures v in kinds && v in s1.tables && FinalTable(s1.tables[v].final)
    {
      assert v in kinds;
    }
  }

  /** A visited type without records raises, unless an earlier type already did. */
  lemma {:induction false} ForwardAllNeedsRecords(s: State, kinds: seq<string>, k: nat)
    requires forall t :: t in kinds ==> t in s.tables && FinalTable(s.tables[t].final)
    ensures k < |kinds| && |Snapshots.Positions(s.records, kinds[k])| == 0 ==> ForwardAll(s, kinds).Err?
    decreases |kinds|
  {
    if k < |kinds| && |Snapshots.Positions(s.records, kinds[k])| == 0 && k > 0 {
      var t := kinds[0];
      assert t in kinds;
      if ForwardType(s, t).Ok? {
        var s1 := ForwardType(s, t).value;
        var rest := kinds[1..];
        forall u | u in rest
          ensures u in s1.tables && FinalTable(s1.tables[u].final)
        {
          assert u in kinds;
        }
        assert ForwardAll(s, kinds) == ForwardAll(s1, rest);
        Snapshots.PositionsSameKinds(s1.records, s.records, kinds[k]);
        assert rest[k - 1] == kinds[k];
        ForwardAllNeedsRecords(s1, rest, k - 1);
      }
    }
  }

  /** Processing one type leaves another type's owned ids alone. */
  lemma ForwardListKeeps(s: State, u: string, t: string, todo: seq<nat>, owned: seq<nat>)
    requires u in s.tables && FinalTable(s.tables[u].final) && t in s.tables && u != t
    requires forall i :: i in todo ==> i < |s.records| && s.records[i].kind == u
    requires forall i :: i in owned ==> i < |s.records| && s.records[i].kind == t
    requires OwnsId(s, t, owned)
    requires ForwardList(s, u, todo).Ok?
    ensures OwnsId(ForwardList(s, u, todo).value, t, owned)
  {
    var s1 := ForwardList(s, u, todo).value;
    forall i | i in owned
      ensures s1.records[i] == s.records[i]
    {
      assert i !in todo;
    }
  }

  /** Types not yet visited keep the ids their records own. */
  lemma {:induction false} ForwardAllKeeps(s: State, kinds: seq<string>, t: string, owned: seq<nat>)
    requires forall u :: u in kinds ==> u in s.tables && FinalTable(s.tables[u].final)
    requires t in s.tables && t !in kinds
    requires forall i :: i in owned ==> i < |s.records| && s.records[i].kind == t
    requires OwnsId(s, t, owned)
    requires ForwardAll(s, kinds).Ok?
    ensures OwnsId(ForwardAll(s, kinds).value, t, owned)
    decreases |kinds|
  {
    if |kinds| > 0 {
      var u := kinds[0];
      assert u in kinds;
      var todo := Snapshots.Positions(s.records, u);
      ForwardAllStep(s, kinds);
      var s1 := ForwardList(s, u, todo).value;
      ForwardListKeeps(s, u, t, todo, owned);
      ForwardAllKeeps(s1, kinds[1..], t, owned);
    }
  }

  /** A duplicate-free list of types splits into its head and a tail without it. */
  lemma DistinctKindsTail(kinds: seq<string>)
    requires |kinds| > 0
    requires forall p, q :: 0 <= p < q < |kinds| ==> kinds[p] != kinds[q]
    ensures forall v :: v in kinds[1..] ==> v != kinds[0]
    ensures forall p, q :: 0 <= p < q < |kinds[1..]| ==> kinds[1..][p] != kinds[1..][q]
  {
    var rest := kinds[1..];
    forall v | v in rest
      ensures v != kinds[0]
    {
      var q :| 0 <= q < |rest| && rest[q] == v;
      assert kinds[q + 1] == v;
    }
  }

  /** After the forward pass, in every visited type each record owns its new
      id in that type's final table, so distinct records of a type carry
      distinct ids. */
  lemma {:induction false} ForwardAllOwns(s: State, kinds: seq<string>)
    requires forall u :: u in kinds ==> u in s.tables && FinalTable(s.tables[u].final)
    requires forall p, q :: 0 <= p < q < |kinds| ==> kinds[p] != kinds[q]
    requires ForwardAll(s, kinds).Ok?
    ensures forall t :: t in kinds ==>
              t in ForwardAll(s, kinds).value.tables && OwnsId(ForwardAll(s, kinds).value, t, Snapshots.Positions(s.records, t))
    decreases |kinds|
  {
    if |kinds| > 0 {
      var u := kinds[0];
      assert u in kinds;
      var todo := Snapshots.Positions(s.records, u);
      ForwardAllStep(s, kinds);
      var s1 := ForwardList(s, u, todo).value;
      var rest := kinds[1..];
      ForwardListOwns(s, u, [], todo);
      assert [] + todo == todo;
      DistinctKindsTail(kinds);
      ForwardAllKeeps(s1, rest, u, todo);
      ForwardAllOwns(s1, rest);
      var final := ForwardAll(s, kinds).value;
      forall t | t in kinds
        ensures t in final.tables && OwnsId(final, t, Snapshots.Positions(s.records, t))
      {
        if t != u {
          assert t in rest;
          Snapshots.PositionsSameKinds(s1.records, s.records, t);
        }
      }
    }
  }

  /** Registering a record points tables only at that record. */
  lemma RegisterValid(s: State, t: string, index: nat)
    requires t in s.tables && index < |s.records| && Valid(s)
    ensures Valid(Register(s, t, index))
  {
  }

  /** Validity depends on the number of records only, not their contents. */
  lemma UpdateRecordValid(s: State, index: nat, r: Record)
    requires index < |s.records| && Valid(s)
    ensures Valid(s.(records := s.records[index := r]))
  {
    var s' := s.(records := s.records[index := r]);
    assert forall x :: ValidRef(s, x) ==> ValidRef(s', x);
    assert forall c :: ValidClaim(s, c) ==> ValidClaim(s', c);
  }

  /** Installing a final table of existing records keeps validity. */
  lemma UpdateFinalValid(s: State, t: string, final': map<string, Claim>)
    requires t in s.tables && Valid(s) && FinalTable(final')
    requires forall k :: k in final' ==> ValidClaim(s, final'[k])
    ensures Valid(s.(tables := s.tables[t := s.tables[t].(final := final')]))
  {
  }

  /** One forward step keeps every table pointing at existing records. */
  lemma ForwardOneValid(s: State, t: string, index: nat)
    requires t in s.tables && index < |s.records| && FinalTable(s.tables[t].final)
    requires Valid(s) && ForwardOne(s, t, index).Ok?
    ensures Valid(ForwardOne(s, t, index).value)
  {
    var r := s.records[index];
    var pick := GetUniqueRef(s.tables[t].final, index, r, t).value;
    assert forall k :: k in pick.1 ==> ValidClaim(s, pick.1[k]);
    UpdateFinalValid(s, t, pick.1);
    var s1 := s.(tables := s.tables[t := s.tables[t].(final := pick.1)]);
    RegisterValid(s1, t, index);
    var s2 := Register(s1, t, index);
    UpdateRecordValid(s2, index, SetRef(r, pick.0));
  }

  lemma {:induction false} ForwardListValid(s: State, t: string, todo: seq<nat>)
    requires t in s.tables && FinalTable(s.tables[t].final)
    requires forall i :: i in todo ==> i < |s.records|
    requires Valid(s) && ForwardList(s, t, todo).Ok?
    ensures Valid(ForwardList(s, t, todo).value)
    decreases |todo|
  {
    if |todo| > 0 {
      ForwardListStep(s, t, todo);
      ForwardOneValid(s, t, todo[0]);
      ForwardListValid(ForwardOne(s, t, todo[0]).value, t, todo[1..]);
    }
  }

  lemma {:induction false} ForwardAllValid(s: State, kinds: seq<string>)
    requires forall u :: u in kinds ==> u in s.tables && FinalTable(s.tables[u].final)
    requires Valid(s) && ForwardAll(s, kinds).Ok?
    ensures Valid(ForwardAll(s, kinds).value)
    decreases |kinds|
  {
    if |kinds| > 0 {
      var u := kinds[0];
      assert u in kinds;
      var todo := Snapshots.Positions(s.records, u);
      ForwardAllStep(s, kinds);
      ForwardListValid(s, u, todo);
      var s1 := ForwardList(s, u, todo).value;
      ForwardAllValid(s1, kinds[1..]);
    }
  }
}

=== FILE: snapshot.dfy ===
/** `inFile`: one SMW file read as a list of records ready for diffing. */
module Snapshots {
  import opened Text
  import opened Outcomes
  import opened Records

  /** Records are separated by a line holding only `]`. */
  const ChunkSeparator: string := "\r\n]\r\n"

  /** The three signals every program has (`reservedSignals`), id to name. */
  const ReservedSignalNames: map<string, string> := map["1" := "0", "2" := "1", "3" := "Local"]

  /** A read file: its records in file order (with `objList[t]` the records of
      type `t` among them) and the types in order of first appearance (`objOrder`). */
  datatype Snapshot = Snapshot(records: seq<Record>, kinds: seq<string>)

  /** The chunks that are not empty, in order: every non-empty chunk is kept
      as often as it occurs, and the empty ones are dropped. */
  function NonEmpty(chunks: seq<string>): (r: seq<string>)
    ensures "" !in r
    ensures forall c :: c != "" ==> multiset(r)[c] == multiset(chunks)[c]
    ensures |r| <= |chunks|
  {
    if |chunks| == 0 then []
    else
      var rest := NonEmpty(chunks[1..]);
      assert chunks == [chunks[0]] + chunks[1..];
      (if chunks[0] == "" then [] else [chunks[0]]) + rest
  }

  /** Filtering keeps the order: the chunks of a concatenation are the chunks
      of each part, one after the other. */
  lemma {:induction false} NonEmptyAppend(xs: seq<string>, ys: seq<string>)
    ensures NonEmpty(xs + ys) == NonEmpty(xs) + NonEmpty(ys)
  {
    if |xs| > 0 {
      assert (xs + ys)[1..] == xs[1..] + ys;
      NonEmptyAppend(xs[1..], ys);
    } else {
      assert xs + ys == ys;
    }
  }

  /** Each non-empty chunk parsed as a record; the first one that fails to
      parse raises. */
  function ParseAll(chunks: seq<string>, flavor: Flavor): (r: Result<seq<Record>>)
    ensures r.Ok? <==> forall k :: 0 <= k < |chunks| ==> Parse(chunks[k], flavor).Ok?
    ensures r.Ok? ==> |r.value| == |chunks| && forall k :: 0 <= k < |chunks| ==> Ok(r.value[k]) == Parse(chunks[k], flavor)
  {
    if |chunks| == 0 then Ok([])
    else
      match Parse(chunks[0], flavor)
      case Err(e) => Err(e)
      case Ok(first) =>
        match ParseAll(chunks[1..], flavor)
        case Err(e) =>
          assert forall k :: 1 <= k < |chunks| ==> chunks[k] == chunks[1..][k - 1];
          Err(e)
        case Ok(rest) =>
          assert forall k :: 1 <= k < |chunks| ==> chunks[k] == chunks[1..][k - 1];
          Ok([first] + rest)
  }

  /** The index of the first record of type `t`, or the length when there is none. */
  function FirstAt(records: seq<Record>, t: string): (n: nat)
    ensures n <= |records|
    ensures n < |records| ==> records[n].kind == t
    ensures forall k :: 0 <= k < n ==> records[k].kind != t
  {
    if |records| == 0 then 0
    else if records[0].kind == t then 0
    else
      var n := FirstAt(records[1..], t);
      assert forall k :: 1 <= k < |records| ==> records[k] == records[1..][k - 1];
      1 + n
  }

  /** A type met in a prefix is first met at the same place in the whole list. */
  lemma FirstAtPrefix(records: seq<Record>, n: nat, t: string)
    requires n <= |records|
    ensures FirstAt(records[..n], t) < n ==> FirstAt(records, t) == FirstAt(records[..n], t)
    ensures FirstAt(records[..n], t) == n ==> FirstAt(records, t) >= n
  {
    var p := FirstAt(records[..n], t);
    var q := FirstAt(records, t);
    assert forall k :: 0 <= k < n ==> records[..n][k] == records[k];
    if p < n {
      assert records[p].kind == t;
    }
  }

  /** Types met before the last record are first met at the same place with
      or without it. */
  lemma FirstAtKept(records: seq<Record>, ks: seq<string>)
    requires |records| > 0
    requires forall t :: t in ks ==> exists k :: 0 <= k < |records| - 1 && records[k].kind == t
    ensures forall i :: 0 <= i < |ks| ==> FirstAt(records, ks[i]) == FirstAt(records[..|records| - 1], ks[i]) < |records| - 1
  {
    var n := |records| - 1;
    forall i | 0 <= i < |ks|
      ensures FirstAt(records, ks[i]) == FirstAt(records[..n], ks[i]) < n
    {
      assert ks[i] in ks;
      var k :| 0 <= k < n && records[k].kind == ks[i];
      assert records[..n][k] == records[k];
      FirstAtPrefix(records, n, ks[i]);
    }
  }

  /** `objOrder`: record types in order of first appearance, each once
      (the order is `KindOrderFollowsFirstAppearance`). */
  function KindOrder(records: seq<Record>): (ks: seq<string>)
    ensures forall i, j :: 0 <= i < j < |ks| ==> ks[i] != ks[j]
    ensures forall t :: t in ks <==> exists k :: 0 <= k < |records| && records[k].kind == t
  {
    if |records| == 0 then []
    else
      var n := |records| - 1;
      var prefix := records[..n];
      var ks := KindOrder(prefix);
      assert forall k :: 0 <= k < |prefix| ==> prefix[k] == records[k];
      var last := records[n].kind;
      if last in ks then ks else ks + [last]
  }

  /** A type listed earlier by `objOrder` first occurs earlier in the file. */
  lemma {:induction false} KindOrderFollowsFirstAppearance(records: seq<Record>)
    ensures forall i, j :: 0 <= i < j < |KindOrder(records)| ==>
              FirstAt(records, KindOrder(records)[i]) < FirstAt(records, KindOrder(records)[j])
  {
    if |records| > 0 {
      var n := |records| - 1;
      var prefix := records[..n];
      var ks := KindOrder(prefix);
      KindOrderFollowsFirstAppearance(prefix);
      assert forall k :: 0 <= k < |prefix| ==> prefix[k] == records[k];
      FirstAtKept(records, ks);
      assert forall i :: 0 <= i < |ks| ==> FirstAt(records, ks[i]) == FirstAt(prefix, ks[i]) < n;
      var last := records[n].kind;
      if last in ks {
        assert KindOrder(records) == ks;
      } else {
        var r := ks + [last];
        assert KindOrder(records) == r;
        FirstAtPrefix(records, n, last);
        assert FirstAt(records, last) == n;
        forall i, j | 0 <= i < j < |r|
          ensures FirstAt(records, r[i]) < FirstAt(records, r[j])
        {
          assert r[i] == ks[i];
          assert FirstAt(records, ks[i]) == FirstAt(prefix, ks[i]) < n;
          if j < |ks| {
            assert r[j] == ks[j];
            assert FirstAt(records, ks[j]) == FirstAt(prefix, ks[j]);
            assert FirstAt(prefix, ks[i]) < FirstAt(prefix, ks[j]);
          }
        }
      }
    }
  }

  /** The indices of the records of type `t`, in file order. */
  function Positions(records: seq<Record>, t: string): (ps: seq<nat>)
    ensures forall i :: i in ps <==> 0 <= i < |records| && records[i].kind == t
    ensures forall p, q :: 0 <= p < q < |ps| ==> ps[p] < ps[q]
    ensures forall p :: 0 <= p < |ps| ==> ps[p] < |records|
  {
    if |records| == 0 then []
    else
      var n := |records| - 1;
      var ps := Positions(records[..n], t);
      assert forall k :: 0 <= k < n ==> records[..n][k] == records[k];
      if records[n].kind == t then ps + [n] else ps
  }

  /** `Positions` reads only the types of the records. */
  lemma {:induction false} PositionsSameKinds(r1: seq<Record>, r2: seq<Record>, t: string)
    requires |r1| == |r2|
    requires forall i :: 0 <= i < |r1| ==> r1[i].kind == r2[i].kind
    ensures Positions(r1, t) == Positions(r2, t)
  {
    if |r1| > 0 {
      var n := |r1| - 1;
      PositionsSameKinds(r1[..n], r2[..n], t);
    }
  }

  /** `objList[t]`: every record of type `t`, each once, in file order. */
  function OfKind(records: seq<Record>, t: string): (r: seq<Record>)
    ensures |r| == |Positions(records, t)|
    ensures forall m :: 0 <= m < |r| ==> r[m] == records[Positions(records, t)[m]]
    ensures forall x :: x in r ==> x in records && x.kind == t
    ensures forall k :: 0 <= k < |records| && records[k].kind == t ==> records[k] in r
  {
    var ps := Positions(records, t);
    var r := seq(|ps|, m requires 0 <= m < |ps| => records[ps[m]]);
    forall k | 0 <= k < |records| && records[k].kind == t
      ensures records[k] in r
    {
      var m :| 0 <= m < |ps| && ps[m] == k;
      assert r[m] == records[k];
    }
    r
  }

  /** `references[t]` as `inFile` builds it: each non-empty id of a type-`t`
      record maps to the index of the last such record carrying it. */
  function RefTable(records: seq<Record>, t: string): (m: map<string, nat>)
    ensures forall h :: h in m ==> m[h] < |records| && records[m[h]].kind == t && records[m[h]].h == h
    ensures forall k :: 0 <= k < |records| && records[k].kind == t && records[k].h != "" ==>
              records[k].h in m && k <= m[records[k].h]
    ensures "" !in m
  {
    if |records| == 0 then map[]
    else
      var n := |records| - 1;
      var prefix := records[..n];
      var m := RefTable(prefix, t);
      assert forall k :: 0 <= k < n ==> prefix[k] == records[k];
      if records[n].kind == t && records[n].h != "" then m[records[n].h := n] else m
  }

  /** The id-to-name table `fixSignals` reads: the reserved signals, overwritten
      by every signal of the file that has an id. */
  function SignalNames(records: seq<Record>): (m: map<string, string>)
    ensures forall h :: h in m <==> h in ReservedSignalNames || h in RefTable(records, TypeSignal)
    ensures forall h :: h in RefTable(records, TypeSignal) ==> m[h] == records[RefTable(records, TypeSignal)[h]].name
  {
    var sigs := RefTable(records, TypeSignal);
    var fromFile := map h | h in sigs :: records[sigs[h]].name;
    ReservedSignalNames + fromFile
  }

  /** Every record at an index in `targets` has its ports translatable. */
  predicate Translatable(records: seq<Record>, targets: set<nat>, table: map<string, string>)
  {
    forall k :: k in targets && k < |records| ==> FixSignals(records[k], table).Ok?
  }

  /** The records at the indices in `targets` with their ports translated. */
  function FixAt(records: seq<Record>, targets: set<nat>, table: map<string, string>): (r: seq<Record>)
    requires Translatable(records, targets, table)
    ensures |r| == |records|
    ensures forall k :: 0 <= k < |records| && k !in targets ==> r[k] == records[k]
    ensures forall k :: 0 <= k < |records| && k in targets ==> Ok(r[k]) == FixSignals(records[k], table)
  {
    seq(|records|, k requires 0 <= k < |records| => if k in targets then FixSignals(records[k], table).value else records[k])
  }

  /** `objectsImported`: the symbols `references['Sm']` holds have their ports
      turned from signal ids into signal names. With no symbol carrying an id
      the table does not exist and the lookup raises. */
  function FixSymbols(records: seq<Record>): (r: Result<seq<Record>>)
    ensures r == Err(NoSymbolTable) <==> |RefTable(records, TypeSymbol)| == 0
    ensures r.Ok? <==> |RefTable(records, TypeSymbol)| > 0 && Translatable(records, RefTable(records, TypeSymbol).Values, SignalNames(records))
    ensures r.Ok? ==> r.value == FixAt(records, RefTable(records, TypeSymbol).Values, SignalNames(records))
  {
    var symbols := RefTable(records, TypeSymbol);
    var table := SignalNames(records);
    if |symbols| == 0 then Err(NoSymbolTable)
    else if !Translatable(records, symbols.Values, table) then Err(UnknownSignal)
    else Ok(FixAt(records, symbols.Values, table))
  }

  /** `inFile(data)`: split into chunks, parse each non-empty one, and fix the
      symbols' signal references. */
  function InFile(data: string): (r: Result<Snapshot>)
    ensures var chunks := NonEmpty(Split(data, ChunkSeparator));
            r.Ok? <==> ParseAll(chunks, Plain).Ok? && FixSymbols(ParseAll(chunks, Plain).value).Ok?
    ensures var chunks := NonEmpty(Split(data, ChunkSeparator));
            r.Ok? ==> r.value.records == FixSymbols(ParseAll(chunks, Plain).value).value
    ensures var chunks := NonEmpty(Split(data, ChunkSeparator));
            r.Ok? ==> |r.value.records| == |chunks| && forall k :: 0 <= k < |chunks| ==>
              r.value.records[k].kind == Parse(chunks[k], Plain).value.kind && r.value.records[k].h == Parse(chunks[k], Plain).value.h
    ensures r.Ok? ==> r.value.kinds == KindOrder(r.value.records)
  {
    var chunks := NonEmpty(Split(data, ChunkSeparator));
    var parsed :- ParseAll(chunks, Plain);
    var fixed :- FixSymbols(parsed);
    KindsSurviveFix(parsed);
    Ok(Snapshot(fixed, KindOrder(fixed)))
  }

  /** Fixing signals keeps every record's type and id. */
  lemma KindsSurviveFix(records: seq<Record>)
    ensures FixSymbols(records).Ok? ==>
              var fixed := FixSymbols(records).value;
              |fixed| == |records| && forall k :: 0 <= k < |records| ==> fixed[k].kind == records[k].kind && fixed[k].h == records[k].h
  {
    if FixSymbols(records).Ok? {
      var fixed := FixSymbols(records).value;
      var targets := RefTable(records, TypeSymbol).Values;
      var table := SignalNames(records);
      assert fixed == FixAt(records, targets, table);
      forall k | 0 <= k < |records|
        ensures fixed[k].kind == records[k].kind && fixed[k].h == records[k].h
      {
        if k in targets {
          var r' := FixSignals(records[k], table);
          assert Ok(fixed[k]) == r';
          assert r'.value == records[k].(body := r'.value.body);
        }
      }
    }
  }

  /** The rendered text of each record. */
  function RenderAll(records: seq<Record>): (r: seq<string>)
    ensures |r| == |records| && forall k :: 0 <= k < |records| ==> r[k] == Render(records[k].body)
  {
    seq(|records|, k requires 0 <= k < |records| => Render(records[k].body))
  }

  /** `diffOut(t)`: the rendered text of every record of type `t`, in file order. */
  function DiffOut(snap: Snapshot, t: string): (r: seq<string>)
    ensures |r| == |Positions(snap.records, t)|
    ensures forall m :: 0 <= m < |r| ==> r[m] == Render(snap.records[Positions(snap.records, t)[m]].body)
  {
    RenderAll(OfKind(snap.records, t))
  }

  /** A type the file does not contain contributes no line. */
  lemma DiffOutAbsentKind(records: seq<Record>, t: string)
    requires forall k :: 0 <= k < |records| ==> records[k].kind != t
    ensures OfKind(records, t) == []
    ensures DiffOut(Snapshot(records, KindOrder(records)), t) == []
  {
  }
}

=== FILE: strategy.dfy ===
/** Merge strategies: the conflict policy of each `Merge` subclass and the
    two hooks the `SMWMerger` mix-in overrides (`_preprocessAdd` and
    `_lastDitchMerge`), plus the record-type to strategy table. */
module Strategies {
  import opened Text
  import opened Outcomes
  import opened Alignment
  import Records

  /** Which input an added line came from (`a_name` / `b_name`). */
  datatype Side = A | B
  {
    function Name(): string
    {
      match this
      case A => "A"
      case B => "B"
    }
  }

  /** `_conflictManager` of `Merge` (diff3 markers), `MergeConservative`,
      `MergeGreedy`, `MergeMaxKeys` and `MergeSymbols`. */
  datatype Policy = Diff3 | Conservative | Greedy | MaxKeys | Symbols

  /** A merge class: its conflict policy and whether it mixes in `SMWMerger`. */
  datatype Strategy = Strategy(policy: Policy, smwHooks: bool)

  const MergePlain := Strategy(Diff3, false)
  const MergeConservative := Strategy(Conservative, false)
  const MergeGreedy := Strategy(Greedy, false)
  const SMWMergeConservative := Strategy(Conservative, true)
  const SMWMergeGreedy := Strategy(Greedy, true)
  const MergeMaxKeys := Strategy(MaxKeys, false)
  const MergeSymbols := Strategy(Symbols, true)

  /** The type table `smw.merge`; `None` is the `False` entry that drops a type,
      and a type missing from the table falls back to the `'unknown'` entry. */
  function StrategyFor(kind: string): (r: Option<Strategy>)
    ensures r.None? <==> kind == "Bw"
    ensures kind == "" ==> r == Some(MergeConservative)
    ensures kind == Records.TypeSymbol ==> r == Some(MergeSymbols)
    ensures kind == Records.TypeSignal ==> r == Some(SMWMergeGreedy)
    ensures kind == "FSgntr" ==> r == Some(MergeMaxKeys)
    ensures kind !in {"", "Sm", "Sg", "FSgntr", "Bw"} ==> r == Some(SMWMergeConservative)
  {
    if kind == "" then Some(MergeConservative)
    else if kind == "Sm" then Some(MergeSymbols)
    else if kind == "Sg" then Some(SMWMergeGreedy)
    else if kind == "FSgntr" then Some(MergeMaxKeys)
    else if kind == "Bw" then None
    else Some(SMWMergeConservative)
  }

  /** A key `hRefFinder` matches: up to three non-`=` characters then `H`. */
  predicate IsRefKey(k: string)
  {
    1 <= |k| <= 4 && k[|k| - 1] == 'H' && '=' !in k
  }

  /** A key `childFinder` matches: `C` then one to four digits. */
  predicate IsChildRefKey(k: string)
  {
    2 <= |k| <= 5 && k[0] == 'C' && IsDecimal(k[1..])
  }

  /** `SMWMerger._preprocessAdd` on one line: a reference key `K` is rewritten
      to `K-<side>`, anything else is left alone. */
  function PreprocessLine(line: string, side: Side): (r: string)
    ensures SplitLine(line).None? ==> r == line
    ensures SplitLine(line).Some? && !IsRefKey(SplitLine(line).value.0) && !IsChildRefKey(SplitLine(line).value.0) ==> r == line
  {
    match Records.SplitLine(line)
    case None => line
    case Some(kv) =>
      if IsRefKey(kv.0) || IsChildRefKey(kv.0) then kv.0 + "-" + side.Name() + "=" + kv.1
      else line
  }

  function SplitLine(line: string): Option<(string, string)>
  {
    Records.SplitLine(line)
  }

  /** A rewritten reference line reads back as the same key tagged with the side. */
  lemma PreprocessTagsSide(line: string, side: Side)
    requires SplitLine(line).Some?
    requires var k := SplitLine(line).value.0; (IsRefKey(k) || IsChildRefKey(k)) && Records.CountChar(k, '-') == 0
    ensures var kv := SplitLine(line).value;
            var kv' := SplitLine(PreprocessLine(line, side));
            && kv'.Some?
            && Records.MakeEntry(kv'.value.0, kv'.value.1) == Records.Entry(kv.0, side.Name(), kv.1)
  {
    var kv := SplitLine(line).value;
    var k' := kv.0 + "-" + side.Name();
    assert PreprocessLine(line, side) == k' + "=" + kv.1;
    assert '=' !in k';
    Records.SplitLineKeyValue(k', kv.1);
    Records.CountCharAppend(kv.0, "-" + side.Name(), '-');
    Records.CountCharAppend("-", side.Name(), '-');
    assert Records.CountChar(side.Name(), '-') == 0;
    assert Records.CountChar("-", '-') == 1;
    assert kv.0 + "-" + side.Name() == kv.0 + ("-" + side.Name());
    var e := Records.MakeEntry(k', kv.1);
    var i := |kv.0|;
    assert k'[i] == '-';
    Records.CountCharPositive(kv.0, '-');
    assert k'[..i] == kv.0;
    Records.FindCharFirst(k', '-', i);
    assert k'[i + 1..] == side.Name();
  }

  /** Rewriting a line twice, for either side, changes nothing more. */
  lemma PreprocessLineIdempotent(line: string, side: Side, side': Side)
    ensures PreprocessLine(PreprocessLine(line, side), side') == PreprocessLine(line, side)
  {
    match SplitLine(line)
    case None =>
    case Some(kv) =>
      if IsRefKey(kv.0) || IsChildRefKey(kv.0) {
        var k' := kv.0 + "-" + side.Name();
        assert '=' !in k';
        Records.SplitLineKeyValue(k', kv.1);
        assert k'[|k'| - 1] != 'H';
        assert k'[|kv.0|] == '-';
        assert !IsChildRefKey(k') by {
          if 2 <= |k'| <= 5 && k'[0] == 'C' {
            assert k'[1..][|kv.0| - 1] == '-';
          }
        }
      }
  }

  /** A rewritten line stays free of CRLF. */
  lemma PreprocessLineNoCRLF(line: string, side: Side)
    requires NoCRLF(line)
    ensures NoCRLF(PreprocessLine(line, side))
  {
    match SplitLine(line)
    case None =>
    case Some(kv) =>
      if IsRefKey(kv.0) || IsChildRefKey(kv.0) {
        assert line == kv.0 + "=" + kv.1;
        NoCRLFSlice(line, 0, |kv.0|);
        NoCRLFSlice(line, |kv.0| + 1, |line|);
        assert line[..|kv.0|] == kv.0 && line[|kv.0| + 1..] == kv.1;
        assert line[0..|kv.0|] == kv.0 && line[|kv.0| + 1..|line|] == kv.1;
        var n := side.Name();
        assert NoCRLF(n) by {
          assert forall k: nat :: !OccursAt(n, CRLF, k);
        }
        NoCRLFAround(n, '=', kv.1);
        NoCRLFAround(kv.0, '-', n + ['='] + kv.1);
        assert kv.0 + "-" + n + "=" + kv.1 == kv.0 + ['-'] + (n + ['='] + kv.1);
      }
  }

  lemma NoCRLFSlice(s: string, i: nat, j: nat)
    requires NoCRLF(s) && i <= j <= |s|
    ensures NoCRLF(s[i..j])
  {
    forall k: nat
      ensures !OccursAt(s[i..j], CRLF, k)
    {
      if k + 2 <= j - i {
        assert s[i..j][k] == s[i + k] && s[i..j][k + 1] == s[i + k + 1];
        assert !OccursAt(s, CRLF, i + k);
      }
    }
  }

  function MapLines(lines: seq<string>, side: Side): (r: seq<string>)
    ensures |r| == |lines| && forall k :: 0 <= k < |r| ==> r[k] == PreprocessLine(lines[k], side)
  {
    if |lines| == 0 then [] else [PreprocessLine(lines[0], side)] + MapLines(lines[1..], side)
  }

  /** `_preprocessAdd`: the identity for plain merges; for SMW merges every
      CRLF-separated line of the element goes through `PreprocessLine`. */
  function PreprocessAdd(s: Strategy, element: string, side: Side): (r: string)
    ensures !s.smwHooks ==> r == element
    ensures s.smwHooks && '=' !in element ==> r == element
    ensures s.smwHooks ==> Split(r, CRLF) == MapLines(Split(element, CRLF), side)
  {
    if s.smwHooks then
      var r := Join(MapLines(Split(element, CRLF), side), CRLF);
      PreprocessedLinesSplit(element, side);
      if '=' !in element then
        NoEqualsUnchanged(element, side);
        r
      else r
    else element
  }

  /** The preprocessed lines contain no CRLF, so splitting their join gives them back. */
  lemma PreprocessedLinesSplit(element: string, side: Side)
    ensures var once := MapLines(Split(element, CRLF), side);
            Split(Join(once, CRLF), CRLF) == once
  {
    var lines := Split(element, CRLF);
    var once := MapLines(lines, side);
    forall l | l in once
      ensures NoCRLF(l)
    {
      var k :| 0 <= k < |once| && once[k] == l;
      assert lines[k] in lines;
      PreprocessLineNoCRLF(lines[k], side);
    }
    SplitJoinLines(once);
  }

  lemma NoEqualsUnchanged(element: string, side: Side)
    requires '=' !in element
    ensures Join(MapLines(Split(element, CRLF), side), CRLF) == element
  {
    var lines := Split(element, CRLF);
    JoinSplit(element, CRLF);
    SplitPiecesAreSlices(element, CRLF);
    MapLinesWithoutEquals(lines, side);
  }

  lemma {:induction false} MapLinesWithoutEquals(lines: seq<string>, side: Side)
    requires forall l :: l in lines ==> '=' !in l
    ensures MapLines(lines, side) == lines
  {
    if |lines| > 0 {
      assert lines[0] in lines;
      MapLinesWithoutEquals(lines[1..], side);
    }
  }

  /** Every piece of a split is a part of the string, so lacks what the string lacks. */
  lemma {:induction false} SplitPiecesAreSlices(s: string, sep: string)
    requires |sep| > 0
    ensures forall p :: p in Split(s, sep) ==> forall c :: c in p ==> c in s
    decreases |s|
  {
    match IndexOf(s, sep)
    case None =>
    case Some(i) =>
      SplitPiecesAreSlices(s[i + |sep|..], sep);
      assert forall c :: c in s[..i] ==> c in s;
      assert forall c :: c in s[i + |sep|..] ==> c in s;
  }

  /** Preprocessing an element twice is the same as once. */
  lemma PreprocessAddIdempotent(s: Strategy, element: string, side: Side)
    ensures PreprocessAdd(s, PreprocessAdd(s, element, side), side) == PreprocessAdd(s, element, side)
  {
    if s.smwHooks {
      var lines := Split(element, CRLF);
      var once := MapLines(lines, side);
      forall l | l in once
        ensures NoCRLF(l)
      {
        var k :| 0 <= k < |once| && once[k] == l;
        PreprocessLineNoCRLF(lines[k], side);
      }
      SplitJoinLines(once);
      forall k | 0 <= k < |once|
        ensures PreprocessLine(once[k], side) == once[k]
      {
        PreprocessLineIdempotent(lines[k], side, side);
      }
      assert MapLines(once, side) == once;
    }
  }

  /** The text one non-hint entry contributes to a two-way merge: an
      unchanged line as it is, a line only the left list has preprocessed for
      side A, a line only the right list has preprocessed for side B. */
  function Contribution(s: Strategy, op: Op): string
  {
    match op.tag
    case Removed => PreprocessAdd(s, op.text, A)
    case Added => PreprocessAdd(s, op.text, B)
    case _ => op.text
  }

  /** `twoWay`: every non-hint entry once, in order; removed lines are
      preprocessed for side A and added lines for side B. */
  function TwoWay(s: Strategy, ops: seq<Op>): (r: seq<string>)
    ensures |r| == |DropHints(ops)|
    ensures forall k :: 0 <= k < |r| ==> r[k] == Contribution(s, DropHints(ops)[k])
  {
    if |ops| == 0 then []
    else
      var rest := TwoWay(s, ops[1..]);
      if IsHint(ops[0]) then rest
      else
        var r := [Contribution(s, ops[0])] + rest;
        var kept := DropHints(ops);
        assert kept == [ops[0]] + DropHints(ops[1..]);
        forall k | 1 <= k < |r|
          ensures r[k] == Contribution(s, kept[k])
        {
          assert r[k] == rest[k - 1];
          assert kept[k] == DropHints(ops[1..])[k - 1];
        }
        r
  }

  /** An all-unchanged alignment merges to the list itself: `twoWay(x, x) == x`
      when the differ reports every line unchanged. */
  lemma {:induction false} TwoWayAllSame(s: Strategy, ops: seq<Op>)
    requires AllSame(ops)
    ensures TwoWay(s, ops) == LeftLines(ops) == RightLines(ops)
  {
    AllSameAlignsEqualLists(ops);
    if |ops| > 0 {
      TwoWayAllSame(s, ops[1..]);
    }
  }

  /** `xs` can be read off `ys` by skipping entries. */
  predicate IsSubsequence(xs: seq<string>, ys: seq<string>)
    decreases |ys|
  {
    |xs| == 0 || (|ys| > 0 && ((xs[0] == ys[0] && IsSubsequence(xs[1..], ys[1..])) || IsSubsequence(xs, ys[1..])))
  }

  /** A plain two-way merge keeps both inputs: each is a subsequence of the result. */
  lemma {:induction false} TwoWayKeepsBothSides(s: Strategy, ops: seq<Op>)
    requires !s.smwHooks
    ensures IsSubsequence(LeftLines(ops), TwoWay(s, ops))
    ensures IsSubsequence(RightLines(ops), TwoWay(s, ops))
  {
    if |ops| > 0 {
      TwoWayKeepsBothSides(s, ops[1..]);
      var rest := TwoWay(s, ops[1..]);
      var r := TwoWay(s, ops);
      if ops[0].tag != Hint {
        assert r == [ops[0].text] + rest;
        assert r[1..] == rest;
      } else {
        assert r == rest;
      }
    }
  }

  /** What `_lastDitchMerge` returned: a falsy value, a merged element, or an exception. */
  datatype LastDitch = Declined | Merged(element: string) | Raised

  /** `_lastDitchMerge`: the base class declines; `SMWMerger` two-way merges
      the two elements line by line and offers the result when it still
      parses as a record; `MergeMaxKeys` always raises (it indexes its result
      list by a string, and an empty result falls to its conflict manager,
      which raises too). */
  function LastDitchMerge(s: Strategy, differ: Differ, a: string, b: string): (r: LastDitch)
    ensures s.policy == MaxKeys <==> r.Raised?
    ensures !s.smwHooks && s.policy != MaxKeys ==> r.Declined?
    ensures r.Merged? ==> s.smwHooks && Records.ParseBody(r.element).Ok?
    ensures r.Merged? ==> r.element == Join(TwoWay(s, differ(Split(a, CRLF), Split(b, CRLF))), CRLF)
    ensures s.smwHooks && s.policy != MaxKeys ==>
              (r.Merged? <==> Records.ParseBody(Join(TwoWay(s, differ(Split(a, CRLF), Split(b, CRLF))), CRLF)).Ok?)
  {
    if s.policy == MaxKeys then Raised
    else if s.smwHooks then
      var merged := Join(TwoWay(s, differ(Split(a, CRLF), Split(b, CRLF))), CRLF);
      if Records.Parse(merged, Records.Plain).Ok? then Merged(merged) else Declined
    else Declined
  }

  /** When the differ reports two equal elements line for line unchanged, the
      SMW last-ditch merge offers the element itself, exactly when it parses. */
  lemma LastDitchMergeOfEqualElements(s: Strategy, differ: Differ, a: string)
    requires s.smwHooks && s.policy != MaxKeys
    requires AllSame(differ(Split(a, CRLF), Split(a, CRLF)))
    requires IsAlignment(Split(a, CRLF), Split(a, CRLF), differ(Split(a, CRLF), Split(a, CRLF)))
    ensures LastDitchMerge(s, differ, a, a) == if Records.ParseBody(a).Ok? then Merged(a) else Declined
  {
    var ops := differ(Split(a, CRLF), Split(a, CRLF));
    TwoWayAllSame(s, ops);
    JoinSplit(a, CRLF);
  }

  /** The statuses of the previous step of the three-way walk (`lastStatus`);
      `None` is the initial `''`. */
  datatype LastStatus = LastStatus(a: Option<Tag>, b: Option<Tag>)

  const BothRemoved := LastStatus(Some(Removed), Some(Removed))

  /** The diff3-style conflict markers. */
  const ConflictStart: string := "<<<<<<< A\n"
  const ConflictMiddle: string := "=======\n"
  const ConflictEnd: string := ">>>>>>> B\n"

  /** `_conflictManager(a, b, lastStatus)`: whether the conflict counts as
      resolved, and the lines that replace the two spans. */
  function Resolve(p: Policy, spanA: seq<string>, spanB: seq<string>, last: LastStatus): (r: Result<(bool, seq<string>)>)
    ensures r.Err? <==> p == MaxKeys
    ensures r.Ok? ==> (r.value.0 <==> p != Diff3)
    ensures p == Diff3 ==> r.value.1 == [ConflictStart] + spanA + [ConflictMiddle] + spanB + [ConflictEnd]
    ensures p == Greedy || (p == Symbols && last != BothRemoved) ==> r.value.1 == spanA + spanB
    ensures p == Symbols && last == BothRemoved ==> r.value.1 == []
    ensures p == Conservative ==> r.value.1 == spanB
  {
    match p
    case Diff3 => Ok((false, [ConflictStart] + spanA + [ConflictMiddle] + spanB + [ConflictEnd]))
    case Conservative => Ok((true, spanB))
    case Greedy => Ok((true, spanA + spanB))
    case MaxKeys => Err(MaxKeysFailure)
    case Symbols => if last != BothRemoved then Ok((true, spanA + spanB)) else Ok((true, []))
  }
}

=== FILE: text.dfy ===
/** Strings as the merge tool sees them: CRLF-separated lines, Python's
    `str.split(sep)` and `sep.join(parts)`, and the decimal integers that
    serve as record identifiers. */
module Text {

  /** The line terminator used throughout input and output. */
  const CRLF: string := "\r\n"

  datatype Option<+T> = None | Some(value: T)

  /** `sep` occurs in `s` starting at position `k`. */
  predicate OccursAt(s: string, sep: string, k: nat)
  {
    k + |sep| <= |s| && forall j :: 0 <= j < |sep| ==> s[k + j] == sep[j]
  }

  /** No occurrence of `sep` starts anywhere in `s`. */
  ghost predicate NoOccurrence(s: string, sep: string)
  {
    forall k: nat :: !OccursAt(s, sep, k)
  }

  /** Position of the first occurrence of `sep` in `s`, as Python's `str.find`. */
  function IndexOf(s: string, sep: string): (r: Option<nat>)
    requires |sep| > 0
    ensures r.Some? ==> OccursAt(s, sep, r.value)
    ensures r.Some? ==> forall k: nat :: k < r.value ==> !OccursAt(s, sep, k)
    ensures r.None? ==> NoOccurrence(s, sep)
    decreases |s|
  {
    if |s| < |sep| then None
    else if OccursAt(s, sep, 0) then Some(0)
    else
      match IndexOf(s[1..], sep)
      case None =>
        assert forall k: nat :: OccursAt(s, sep, k + 1) ==> OccursAt(s[1..], sep, k);
        assert forall k: nat :: OccursAt(s, sep, k) ==> k == 0 || OccursAt(s[1..], sep, k - 1);
        None
      case Some(i) =>
        assert forall k: nat :: OccursAt(s[1..], sep, k) ==> OccursAt(s, sep, k + 1);
        assert forall k: nat :: OccursAt(s, sep, k) && k > 0 ==> OccursAt(s[1..], sep, k - 1);
        Some(i + 1)
  }

  /** Python's `s.split(sep)`: the pieces between non-overlapping occurrences
      of `sep`, scanned left to right. */
  function Split(s: string, sep: string): (parts: seq<string>)
    requires |sep| > 0
    ensures |parts| >= 1
    ensures forall p :: p in parts ==> NoOccurrence(p, sep)
    decreases |s|
  {
    match IndexOf(s, sep)
    case None => [s]
    case Some(i) =>
      assert forall k: nat :: OccursAt(s[..i], sep, k) ==> OccursAt(s, sep, k);
      [s[..i]] + Split(s[i + |sep|..], sep)
  }

  /** Python's `sep.join(parts)`. */
  function Join(parts: seq<string>, sep: string): string
  {
    if |parts| == 0 then ""
    else if |parts| == 1 then parts[0]
    else parts[0] + sep + Join(parts[1..], sep)
  }

  /** Joining the pieces of a split gives back the original string. */
  lemma {:induction false} JoinSplit(s: string, sep: string)
    requires |sep| > 0
    ensures Join(Split(s, sep), sep) == s
    decreases |s|
  {
    var found := IndexOf(s, sep);
    if found.Some? {
      var i := found.value;
      var rest := s[i + |sep|..];
      JoinSplit(rest, sep);
      SplitUnfolds(s, sep, i);
      JoinCons(s[..i], Split(rest, sep), sep);
      SplitAround(s, sep, i);
    }
  }

  /** Where `sep` first occurs, the split takes the text before it as its first piece. */
  lemma SplitUnfolds(s: string, sep: string, i: nat)
    requires |sep| > 0 && IndexOf(s, sep) == Some(i)
    ensures OccursAt(s, sep, i)
    ensures Split(s, sep) == [s[..i]] + Split(s[i + |sep|..], sep)
  {
  }

  /** Joining a piece in front of at least one other. */
  lemma JoinCons(p: string, tail: seq<string>, sep: string)
    requires |tail| >= 1
    ensures Join([p] + tail, sep) == p + sep + Join(tail, sep)
  {
    assert ([p] + tail)[1..] == tail;
  }

  /** A string is its text before an occurrence, the separator, and the text after. */
  lemma SplitAround(s: string, sep: string, i: nat)
    requires OccursAt(s, sep, i)
    ensures s == s[..i] + sep + s[i + |sep|..]
  {
    assert s[i..i + |sep|] == sep;
    assert s == s[..i] + s[i..i + |sep|] + s[i + |sep|..];
  }

  /** No `\r` immediately followed by `\n`. */
  ghost predicate NoCRLF(s: string)
  {
    NoOccurrence(s, CRLF)
  }

  /** In `p + CRLF + rest` with `p` free of CRLF, the first CRLF is the one after `p`. */
  lemma FirstCRLF(p: string, rest: string)
    requires NoCRLF(p)
    ensures IndexOf(p + CRLF + rest, CRLF) == Some(|p|)
  {
    var s := p + CRLF + rest;
    assert OccursAt(s, CRLF, |p|);
    forall k: nat | k < |p|
      ensures !OccursAt(s, CRLF, k)
    {
      if k < |p| - 1 {
        assert s[k] == p[k] && s[k + 1] == p[k + 1];
        assert !OccursAt(p, CRLF, k);
      } else {
        assert s[k + 1] == CRLF[0] != CRLF[1];
      }
    }
  }

  /** Splitting a CRLF-join of CRLF-free lines gives back the lines. */
  lemma {:induction false} SplitJoinLines(lines: seq<string>)
    requires |lines| >= 1
    requires forall l :: l in lines ==> NoCRLF(l)
    ensures Split(Join(lines, CRLF), CRLF) == lines
    decreases |lines|
  {
    if |lines| == 1 {
      assert NoCRLF(lines[0]);
    } else {
      var p := lines[0];
      assert NoCRLF(p);
      var rest := Join(lines[1..], CRLF);
      var s := p + CRLF + rest;
      assert Join(lines, CRLF) == s;
      FirstCRLF(p, rest);
      assert s[..|p|] == p;
      assert s[|p| + 2..] == rest;
      SplitJoinLines(lines[1..]);
      assert Split(s, CRLF) == [p] + Split(rest, CRLF);
    }
  }

  /** Gluing two CRLF-free strings around a character other than `\r` and
      `\n` creates no CRLF. */
  lemma NoCRLFAround(a: string, c: char, b: string)
    requires NoCRLF(a) && NoCRLF(b) && c != '\r' && c != '\n'
    ensures NoCRLF(a + [c] + b)
  {
    var s := a + [c] + b;
    forall k: nat
      ensures !OccursAt(s, CRLF, k)
    {
      if k + 1 < |a| {
        assert s[k] == a[k] && s[k + 1] == a[k + 1];
        assert !OccursAt(a, CRLF, k);
      } else if k + 1 == |a| {
        assert s[k + 1] == c != CRLF[1];
      } else if k == |a| {
        assert s[k] == c != CRLF[0];
      } else if k + 1 < |s| {
        assert s[k] == b[k - |a| - 1] && s[k + 1] == b[k - |a|];
        assert !OccursAt(b, CRLF, k - |a| - 1);
      }
    }
  }

  /** A decimal rendering determines its number. */
  lemma NatToStringInjective(m: nat, n: nat)
    ensures NatToString(m) == NatToString(n) ==> m == n
  {
  }

  predicate IsDigit(c: char)
  {
    '0' <= c <= '9'
  }

  /** A non-empty run of ASCII decimal digits. */
  predicate IsDecimal(s: string)
  {
    |s| > 0 && forall k :: 0 <= k < |s| ==> IsDigit(s[k])
  }

  /** The value of a run of decimal digits (leading zeros allowed). */
  function DecimalValue(s: string): nat
    requires IsDecimal(s)
    decreases |s|
  {
    if |s| == 1 then (s[0] as int - '0' as int)
    else 10 * DecimalValue(s[..|s| - 1]) + (s[|s| - 1] as int - '0' as int)
  }

  function DigitChar(d: nat): (c: char)
    requires d < 10
    ensures IsDigit(c) && c as int - '0' as int == d
  {
    (d + '0' as int) as char
  }

  /** Python's `str(n)` for a natural number. */
  function NatToString(n: nat): (s: string)
    ensures IsDecimal(s) && DecimalValue(s) == n
    decreases n
  {
    if n < 10 then [DigitChar(n)]
    else
      var prefix := NatToString(n / 10);
      var s := prefix + [DigitChar(n % 10)];
      assert s[..|s| - 1] == prefix;
      s
  }

  /** Python's `int(s)` restricted to an optional sign followed by decimal
      digits; anything else raises `ValueError`, here `None`. */
  function PyInt(s: string): (r: Option<int>)
    ensures r.Some? ==> (IsDecimal(s) && r.value == DecimalValue(s))
                        || (|s| > 1 && s[0] == '-' && IsDecimal(s[1..]) && r.value == -(DecimalValue(s[1..]) as int))
                        || (|s| > 1 && s[0] == '+' && IsDecimal(s[1..]) && r.value == DecimalValue(s[1..]))
    ensures IsDecimal(s) ==> r == Some(DecimalValue(s))
    ensures |s| > 1 && s[0] == '-' && IsDecimal(s[1..]) ==> r == Some(-(DecimalValue(s[1..]) as int))
    ensures |s| > 1 && s[0] == '+' && IsDecimal(s[1..]) ==> r == Some(DecimalValue(s[1..]))
  {
    if IsDecimal(s) then Some(DecimalValue(s))
    else if |s| > 1 && s[0] == '-' && IsDecimal(s[1..]) then Some(-(DecimalValue(s[1..]) as int))
    else if |s| > 1 && s[0] == '+' && IsDecimal(s[1..]) then Some(DecimalValue(s[1..]))
    else None
  }

  /** Python's `str(n)` for any integer. */
  function IntToString(n: int): string
  {
    if n >= 0 then NatToString(n) else "-" + NatToString(-n)
  }

  /** `int(str(n)) == n`. */
  lemma PyIntOfIntToString(n: int)
    ensures PyInt(IntToString(n)) == Some(n)
  {
    if n < 0 {
      var s := IntToString(n);
      assert s[1..] == NatToString(-n);
      assert !IsDecimal(s) by {
        assert !IsDigit(s[0]);
      }
    }
  }

  /** Different integers print differently. */
  lemma IntToStringInjective(m: int, n: int)
    ensures IntToString(m) == IntToString(n) ==> m == n
  {
    if IntToString(m) == IntToString(n) {
      PyIntOfIntToString(m);
      PyIntOfIntToString(n);
    }
  }
}
